=== FILE: README.md ===
# dronesploit wifi commands, modelled in Dafny

This project models the wifi commands of the dronesploit console
(`commands/wifi.py`): `password`, `scan`, `connect`, `targets` and `toggle`.
They read and update the console's shared state:

- `INTERFACES` maps an interface name to `[monitor, boundEssid]`.
- `TARGETS` maps an ESSID to a dict of fields, kept in insertion order.
- `PASSWORDS` maps an ESSID to its password.

The console is a class `Wifi.Console` with one field per map and a trace of
the shell jobs it has run (`airmon-ng stop/check kill/start`, `rfkill
list/unblock`). The commands that update the maps in place are methods. The
loops of `Toggle.run` and `Targets.run` are methods too, proved against pure
specification functions:

- `TogglePlan` gives the jobs, the outcome and the final `INTERFACES` of a toggle.
- `ParseAnnouncement` gives the parse of the `airmon-ng start` output.
- `UnblockScan` gives the rfkill scan.
- `TargetsTable` gives the table rows.

Every read of `console.root.interfaces` refreshes `INTERFACES` from the
operating system. Here each refresh is an input snapshot that replaces
`INTERFACES` wholesale. The text printed by `airmon-ng start` and `rfkill
list` is an input too (`Wifi.ToggleEnv`).

Files:

| file | contents |
|---|---|
| `text.dfy` | the Python `str` operations used: `split` with a limit, `splitlines`, `strip`, `in`, `lower` |
| `airmon.dfy` | the search for `\[([a-z]+\d+)\](\w+)` and the parse of the `airmon-ng start` announcement |
| `rfkill.dfy` | the scan of the `rfkill list` lines for the announced device |
| `state.dfy` | the values held in the shared state and the connected ESSIDs |
| `layout.dfy` | the rows one target contributes to the `targets` table |
| `wifi.dfy` | the commands, the validators, the completions and the `Console` class |
| `wrappers.dfy` | `Option`, `Result` and the pass/fail `Outcome` of a validator |

## Model

| member | source | states |
|---|---|---|
| Text.SplitGlues | commands/wifi.py:175 | Joining the pieces of `line.split(":", 2)` with ":" gives back the line. |
| Text.Split | commands/wifi.py:175 | A split always yields at least one piece, and at most `maxsplit + 1` pieces when a limit is given. Where the cuts fall is stated by `SplitUsesLimit`, `SplitGlues` and `SplitPiecesClean` together. |
| Text.SplitUsesLimit | commands/wifi.py:175 | A separator is left in the last piece only once all `maxsplit` cuts are made. With `SplitGlues` and `SplitPiecesClean`, this fixes where the cuts fall: at the first separators. |
| Text.SplitPiecesClean | commands/wifi.py:175 | Only the last piece of a limited split can still hold the separator. With no limit, no piece holds it. |
| Text.SplitCuts | commands/wifi.py:175-176 | A limited split yields a second piece exactly when the separator occurs in the line. |
| Text.SplitJoin | commands/wifi.py:159 | `out.split("\n")` of lines without "\n", joined by "\n", gives back those lines. |
| Text.SplitLinesJoin | commands/wifi.py:174 | `splitlines()` of lines joined and terminated by "\n" gives back those lines. |
| Text.SplitLines | commands/wifi.py:174 | No line holds a line boundary, and only the empty text has no lines. The lines themselves are fixed by the boundary lemmas below. |
| Text.SplitLinesJoinUnterminated | commands/wifi.py:174 | `splitlines()` of lines joined by "\n" with no final one gives back those lines, when the last is not empty. |
| Text.SplitLinesLast | commands/wifi.py:174 | A non-empty text with no boundary is one line. |
| Text.SplitLinesAtCrLf | commands/wifi.py:174 | "\r\n" is one boundary: the line before it is cut off whole and the rest is split on its own. |
| Text.SplitLinesAtBreak | commands/wifi.py:174 | Any other boundary character, and a "\r" not followed by "\n", cuts off the line before it whole. The rest is split on its own. |
| Text.Strip | commands/wifi.py:176 | The result neither starts nor ends with whitespace, and the input is whitespace, then the result, then whitespace. |
| Text.StripIdempotent | commands/wifi.py:176 | Stripping a stripped string changes nothing. |
| Text.ContainsAt | commands/wifi.py:160 | `"monitor mode" in line` holds exactly when the marker occurs at some index of the line. |
| Airmon.MatchAtSound | commands/wifi.py:161 | What the matcher returns at an index is a match of `\[([a-z]+\d+)\](\w+)`, with a greedy word. |
| Airmon.MatchAtComplete | commands/wifi.py:161 | Every match of the pattern at an index is the one the matcher returns there. |
| Airmon.MatchAtFromParts | commands/wifi.py:161 | A "[", lower-case letters then digits, "]", then a maximal run of word characters is a match, with those two groups. |
| Airmon.FirstMatch | commands/wifi.py:161 | The scan for a match stops at the first index where the pattern matches. No match starts before it. |
| Airmon.SearchLeftmost | commands/wifi.py:161 | `re.search` returns the leftmost match of the line. |
| Airmon.SearchSound | commands/wifi.py:161-163 | A found tag is a match of the pattern somewhere in the line. |
| Airmon.FirstMarkerLineDecides | commands/wifi.py:159-164 | Only the first line mentioning "monitor mode" is searched. Later lines are never looked at, even when that search misses. |
| Airmon.AnnouncedTag | commands/wifi.py:158-163 | An announcement line gives the bracketed device id and the word after it. |
| Airmon.RenameAnnouncement | commands/wifi.py:156-163 | For the line airmon-ng prints on a rename, `[phy0]wlan0 on [phy0]wlan0mon`, the parse gives device "phy0" and word "wlan0". |
| Rfkill.WellFormedIffColon | commands/wifi.py:175-176 | `parts[1]` exists exactly when the line holds a ":". |
| Rfkill.FieldsOfEntry | commands/wifi.py:175-176 | For a line `id:device:rest`, `parts[0]` is the id, `parts[1]` is the text between the first and the second ":", and `parts[2]` is the rest, colons included. |
| Rfkill.ScanCompleteIff | commands/wifi.py:174-177 | The loop reaches the end of the listing exactly when every line has a second field. |
| Rfkill.ScanCompleteIffColon | commands/wifi.py:174-177 | The loop reaches the end of the listing exactly when every line holds a ":". |
| Rfkill.EveryMatchUnblocked | commands/wifi.py:174-177 | When every line can be read, every line naming the device has its id unblocked, not only the first. |
| Rfkill.OnlyMatchesUnblocked | commands/wifi.py:174-177 | Every unblocked id is the first field of a line naming the device, and only readable lines come before that line. |
| Rfkill.StopsAtUnreadable | commands/wifi.py:174-177 | A line without ":" ends the loop. The unblocks issued are those of the lines before it. |
| Rfkill.ScanExtend | commands/wifi.py:174-177 | Reading one more line adds its id when it names the device, adds nothing when it names another, and ends the scan when it has no ":". |
| Session.ConnectedEssids | commands/wifi.py:111 | The connected ESSIDs are exactly those some interface is bound to. They are empty when no interface is bound. |
| Layout.FieldValues | commands/wifi.py:113-115 | The values are `target[h.lower()]` for each header, in header order. KeyError is raised exactly when some header's key is missing. |
| Layout.MissingFieldSticks | commands/wifi.py:115 | The KeyError names the first header whose key the target lacks. |
| Layout.RowCountCovers | commands/wifi.py:113-118 | The rows appended for the block hold every column's values. |
| Layout.ListFillsColumn | commands/wifi.py:116-124 | A list field of n items fills rows 0 to n-1 of its column, in order. |
| Layout.BoldIffConnected | commands/wifi.py:122-124 | A shown cell holding a value is bold exactly when the target is connected. |
| Layout.DropBlank | commands/wifi.py:125-128 | The kept rows are exactly the rows that are not all "", and there are no more of them than rows. Order and multiplicity are stated by `DropBlankAppend` and `DropBlankOne`. |
| Layout.DropBlankAppend | commands/wifi.py:125-128 | Dropping works row by row: each part of the block is filtered on its own and the results are concatenated, so equal rows are each kept and the order is kept. |
| Layout.DropBlankOne | commands/wifi.py:125-128 | A single row is kept, once, exactly when it is not all "". |
| Layout.BlankTailDropped | commands/wifi.py:125-128 | Trailing all-"" rows contribute nothing. |
| Layout.ShownRowsBound | commands/wifi.py:112-128 | A target shows no more rows than its longest column has values. |
| Layout.SpreadColumn | commands/wifi.py:116-124 | After one column is laid out, every cell of the columns so far holds the column's value at that row, or "". |
| Layout.KeepShown | commands/wifi.py:125-128 | The loop keeps exactly the rows `DropBlank` keeps, in order. |
| Layout.LayoutTarget | commands/wifi.py:112-128 | The loops build exactly the rows `TargetRows` specifies, or its KeyError. |
| Wifi.PasswordKeys | commands/wifi.py:42-44 | The completions are exactly the targets whose dict holds a 'password' key, whatever its value. |
| Wifi.PasswordKeysAppend | commands/wifi.py:44 | The completions are built target by target, in `TARGETS` order, so each listed target with a 'password' key appears once and in place. |
| Wifi.PasswordValidateIff | commands/wifi.py:42-56 | Validation fails with "invalid target" exactly when the ESSID is not a target with a 'password' key. A key holding None passes. |
| Wifi.StoreTargets | commands/wifi.py:50 | Only the 'password' field of that ESSID changes, to the new password. No other target and no other field changes. |
| Wifi.StoreKeepsConsistent | commands/wifi.py:49-51 | Setting a password keeps every `PASSWORDS` entry equal to its target's 'password' field. |
| Wifi.StoreEnablesConnect | commands/wifi.py:13-16 | After a password is set, the target is a `password` completion. It is a `connect` completion exactly when it is not connected. |
| Wifi.Console.SetPassword | commands/wifi.py:49-51 | `TARGETS[essid]['password'] == PASSWORDS[essid] == password`, and nothing else changes. A missing target raises KeyError and changes nothing. |
| Wifi.Console.PasswordCommand | commands/wifi.py:49-56 | Validation passes exactly for targets with a 'password' key. A rejected ESSID changes nothing. An accepted one is stored in both maps. |
| Wifi.EntryList | commands/wifi.py:75 | An `INTERFACES` entry is a two-element list whose first element is the monitor flag. |
| Wifi.ScanValidateIgnoresMode | commands/wifi.py:72-78 | As written, `Scan.validate` passes exactly for a known interface with a positive timeout. It never fails with "not in monitor mode". |
| Wifi.ScanValidateAcceptsManaged | commands/wifi.py:75-76 | A managed-mode interface passes the check as written and fails the intended one. |
| Wifi.ScanValidateIntendedIff | commands/wifi.py:65-78 | The intended check passes exactly for a `scan` completion with a positive timeout. It never passes where the as-written one fails. |
| Wifi.ConnectCompleteValues | commands/wifi.py:13-16 | The completions are exactly the targets with a non-None password that are not connected. |
| Wifi.ConnectCompleteValuesAppend | commands/wifi.py:13-16 | The completions are built target by target, in `TARGETS` order, so each listed target appears once and in place. |
| Wifi.ConnectableHasPasswordKey | commands/wifi.py:13-16 | Every `connect` completion is a `password` completion. |
| Wifi.Bind | commands/wifi.py:22 | Only the chosen entry changes: its bound ESSID becomes the one joined, and every monitor flag is kept. |
| Wifi.BindConnects | commands/wifi.py:22 | After binding, the connected ESSIDs are those of the other interfaces plus the one joined. |
| Wifi.BoundNotOffered | commands/wifi.py:13-22 | Once bound, the ESSID is connected. Taking `connected_targets` to be the ESSIDs bound in `INTERFACES`, it is no longer a `connect` completion. |
| Wifi.Console.Connect | commands/wifi.py:18-24 | A failed connection changes nothing. An unknown interface raises KeyError. Otherwise the interface is bound and the ESSID is connected. |
| Wifi.TabulateIff | commands/wifi.py:109-133 | The table fails exactly when a target's block fails, with the error of the first one. It is empty, so the warning is logged, exactly when every block is. |
| Wifi.TabulateStep | commands/wifi.py:109-128 | Each target appends its block, or ends the table with its error. |
| Wifi.TabulateFailureSticks | commands/wifi.py:115 | A KeyError of one target ends the table, whatever targets follow. |
| Wifi.TargetStep | commands/wifi.py:109-128 | The table after one more target is the one before plus that target's rows, or that target's error. |
| Wifi.Console.ShowTarget | commands/wifi.py:111-128 | The rows shown for one target are the ones `ShownRows` specifies, or its KeyError. |
| Wifi.Console.Targets | commands/wifi.py:106-133 | The loop builds the table `TargetsTable` specifies. The warning is logged exactly when no row is shown. |
| Wifi.CommandLine | commands/wifi.py:147-177 | Every job runs under `sudo`. |
| Wifi.CommandLineInjective | commands/wifi.py:147-177 | Distinct jobs run distinct shell lines, so the job trace records exactly the commands run. |
| Wifi.UnblocksAt | commands/wifi.py:177 | The k-th unblock job is for the k-th id. |
| Wifi.UnblocksSnoc | commands/wifi.py:177 | One more matching line appends one more unblock after those already issued. |
| Wifi.MonitorOnlyStops | commands/wifi.py:145-148 | An interface in monitor mode gets `airmon-ng stop` only. The toggle ends at stage `BackToManaged` with the final refresh as `INTERFACES`. |
| Wifi.ManagedSwitchOrder | commands/wifi.py:149-157 | A managed interface gets stop, check kill, then start with "y\n" on stdin, in that order. No other job starts anything. |
| Wifi.UnblockPlanStartsOnce | commands/wifi.py:149-177 | Past the rename, the switch jobs come first, and no job after the third starts anything. |
| Wifi.StartOnlyFromManaged | commands/wifi.py:145-157 | `airmon-ng start` runs only on the toggled interface, and only when it was managed. |
| Wifi.ShortOfRename | commands/wifi.py:143-171 | A toggle that does not get past the rename runs at most the switch jobs and no rfkill job. It never ends at stage `MonitorOn`. |
| Wifi.PastRename | commands/wifi.py:158-177 | Past the rename, what is left is the rfkill part for the announced device. |
| Wifi.NotAnnouncedSkipsRefresh | commands/wifi.py:165-167 | Without an announcement the toggle returns after the switch jobs, with no rfkill job and without the final refresh. |
| Wifi.EmptyDiffRaises | commands/wifi.py:168-169 | When no name appears between the two refreshes, the toggle raises before rfkill runs and keeps the refresh made after the switch. |
| Wifi.UnblockPlanJobs | commands/wifi.py:173-177 | The rfkill part runs the switch jobs, then `rfkill list`, then one unblock per scanned id, in order. |
| Wifi.MonitorOnIff | commands/wifi.py:173-178 | Past the rename, the toggle ends at stage `MonitorOn` with the final refresh exactly when every rfkill line holds a ":". Otherwise it raises with the refresh made after the switch. |
| Wifi.UnblockPlanStage | commands/wifi.py:173-178 | The rfkill part ends at stage `MonitorOn` exactly when every line holds a ":". `INTERFACES` is the final refresh in that case and the refresh after the switch otherwise. |
| Wifi.EveryEntryUnblocked | commands/wifi.py:173-177 | On success, every rfkill line naming the announced device has its id unblocked. |
| Wifi.UnblockPlanEveryEntry | commands/wifi.py:173-177 | When the rfkill part ends at stage `MonitorOn`, every line naming the device has its unblock among the jobs. |
| Wifi.OnlyDeviceEntriesUnblocked | commands/wifi.py:158-177 | Whatever the outcome, an unblocked id comes from a line naming the announced device, reached before any unreadable line. |
| Wifi.UnblockPlanOnlyDevice | commands/wifi.py:173-177 | Every unblock of the rfkill part is for a line naming the device. |
| Wifi.OnlyDeviceDecides | commands/wifi.py:158-177 | Two announcements with the same device id lead to the same toggle. The word after the brackets is never used. |
| Wifi.ValidatedToggleKnown | commands/wifi.py:181-183 | A validated toggle always finds its interface's entry and runs at least one job. |
| Wifi.ScanOneMore | commands/wifi.py:174-177 | A readable line adds its id when it names the device, and nothing otherwise. |
| Wifi.UnreadableStops | commands/wifi.py:175-176 | A line without ":" ends the scan with the unblocks of the lines before it. |
| Wifi.FindAnnouncement | commands/wifi.py:158-164 | The loop over the output lines, with its `break`, yields exactly `ParseAnnouncement`. |
| Wifi.Console.RunUnblocks | commands/wifi.py:174-177 | The loop appends one unblock per line naming the device, in order. It stops at the first line without ":". |
| Wifi.Console.Toggle | commands/wifi.py:143-178 | The jobs, the outcome and the final `INTERFACES` are those of `TogglePlan`. Past the rename, the new name appeared between the two refreshes. |
| Wifi.Console.ToggleCommand | commands/wifi.py:143-183 | An unknown interface fails validation with no job run. A validated one toggles as `TogglePlan` says and never hits the KeyError. |

## Behaviour as written

`Toggle.run` and `Password.validate` behave as follows, and the model keeps
this:

- Only the monitor-mode branch and the full success path end with the final
  `INTERFACES` refresh. A missing announcement returns early and keeps the
  refresh made before the switch. An empty rename difference and an
  unreadable rfkill line raise IndexError and keep the refresh made after the
  switch. `Stage` names each ending.
- When more than one name appears between the refreshes, `Toggle.run` takes
  an arbitrary one (`list(after - before)[0]`). `Console.Toggle` picks it
  with `:|`.
- An empty difference raises IndexError (`NoNewInterface`).
- Every rfkill line naming the device is unblocked.
- The word parsed after the brackets is never used. The new name comes from
  the difference of the refreshes (`OnlyDeviceDecides`).
- `Toggle.run` itself does not validate: an interface without an
  `INTERFACES` entry raises KeyError (`UnknownInterface`). The check is in
  `Toggle.validate`, modelled by `ToggleCommand`.
- `Password.validate` accepts a target only when its dict has a 'password'
  key.

## Left out

- Shell execution: `sudo`, exit statuses and the behaviour of `airmon-ng` and `rfkill` are not modelled. Jobs are recorded in a trace, and their output is an input.
- The OS enumeration behind `console.root.interfaces` is not modelled. Each refresh is an input snapshot.
- `WifiConnectMixin.connect`: its answer, the interface joined or None, is an input of `Console.Connect`.
- `Disconnect` and `WifiConnectMixin.disconnect` are left out: the command only forwards to that code, which is not part of this model.
- `Scan.run`, `ScanMixin.scan` and `drone_filter` are left out: that code is not part of this model.
- `State.run` is left out: it only dumps and prints the state as YAML.
- `Password.complete_values` and `Toggle.complete_values` are left out: each returns a map's values or the interface list unchanged.
- Rendering is left out: `colored`, `BorderlessTable`, `ANSI`, the logger messages, `Entity.check()` and the `requirements` metadata. Bold is a flag on a cell. Colours are taken as enabled, so a bold cell is never "".
- The header row of the table is not part of `TargetsTable`. That function holds the rows below the header, and `len(data) > 1` becomes "some row is shown".
- `connected_targets` of the console root is not part of this model. It is a parameter of `ConnectCompleteValues`. `BoundNotOffered` takes it to be the ESSIDs bound in `INTERFACES` (`ConnectedEssids`), which is what it assumes of that code.
- The mode an interface is in after a toggle is whatever the refresh reports. `Stage` records which branch `Toggle.run` took, and `INTERFACES` becomes the refresh snapshot. The monitor flags in that snapshot are not constrained, just as the source only logs the mode at lines 148 and 171.
- `Airmon.Search`: `\d` and `\w` are ASCII only. Python's Unicode digits and word characters are not modelled.
- `Wifi.ScanValidate`: the timeout is taken as an integer. The ValueError that `int(timeout)` raises on text that is not a number is not modelled.
- `Wifi.ScanCompleteKeys`: returns a set, so the dict order of the completion list is not kept.
- `Text.Lower`: maps ASCII letters only. The header keys are ASCII.

## Findings

| source | as written | input that shows it | evidently intended | confidence | as-written member | corrected member |
|---|---|---|---|---|---|---|
| commands/wifi.py:75-76 | `if not self.console.state['INTERFACES'][interface]` tests the whole `[monitor, boundEssid]` entry. A two-element list is always truthy, so the test never fails. | `INTERFACES == {"wlan0": [False, None]}`, `scan wlan0 300`: validation passes for a managed interface | test the monitor flag `[0]`, as `Scan.complete_keys` does at line 67 | not executed | Wifi.ScanValidateAcceptsManaged | Wifi.ScanValidateIntendedIff |

=== FILE: airmon.dfy ===
/**
 * Reading the output of `airmon-ng start <iface>`: the command looks for the
 * first output line that mentions "monitor mode" and searches it for the
 * regular expression `\[([a-z]+\d+)\](\w+)` (commands/wifi.py, Toggle.run).
 *
 * `\d` and `\w` are taken over ASCII only: `\d` is 0-9 and `\w` is the ASCII
 * letters, the digits and `_`.
 */
module Airmon {
  import opened Text
  import opened Wrappers

  datatype CharClass = LowerLetter | Digit | Word

  predicate InClass(c: char, cls: CharClass)
  {
    match cls
    case LowerLetter => 'a' <= c <= 'z'
    case Digit => '0' <= c <= '9'
    case Word => 'a' <= c <= 'z' || 'A' <= c <= 'Z' || '0' <= c <= '9' || c == '_'
  }

  predicate AllIn(s: string, cls: CharClass)
  {
    forall j :: 0 <= j < |s| ==> InClass(s[j], cls)
  }

  /** The end of the longest run of `cls` characters of `s` that starts at `k`. */
  function RunEnd(s: string, k: nat, cls: CharClass): (e: nat)
    requires k <= |s|
    ensures k <= e <= |s|
    ensures forall j :: k <= j < e ==> InClass(s[j], cls)
    ensures e < |s| ==> !InClass(s[e], cls)
    decreases |s| - k
  {
    if k == |s| || !InClass(s[k], cls) then k else RunEnd(s, k + 1, cls)
  }

  /** A run of `cls` characters from `k` to `e` that cannot be extended is the longest one. */
  lemma {:induction false} RunEndIs(s: string, k: nat, e: nat, cls: CharClass)
    requires k <= e <= |s|
    requires forall j :: k <= j < e ==> InClass(s[j], cls)
    requires e < |s| ==> !InClass(s[e], cls)
    ensures RunEnd(s, k, cls) == e
    decreases e - k
  {
    if k < e {
      RunEndIs(s, k + 1, e, cls);
    }
  }

  /** The two groups of a match: the bracketed device and the word after it. */
  datatype Tag = Tag(device: string, newName: string)

  /** `dev` splits at `m` into one or more of [a-z] followed by one or more of [0-9]. */
  predicate LettersThenDigits(dev: string, m: int)
  {
    0 < m < |dev| && AllIn(dev[..m], LowerLetter) && AllIn(dev[m..], Digit)
  }

  /** `dev` is a whole match of `[a-z]+\d+`. */
  ghost predicate DeviceId(dev: string)
  {
    exists m :: LettersThenDigits(dev, m)
  }

  /**
   * What the pattern denotes at index `p` of `s`, written declaratively:
   * "[" then a device id, "]", then a word that the next character does not
   * continue (greedy `\w+`).
   */
  ghost predicate TagAt(s: string, p: nat, t: Tag)
  {
    var d := p + 1 + |t.device|;
    var w := d + 1 + |t.newName|;
    && w <= |s|
    && s[p] == '[' && s[p + 1..d] == t.device && s[d] == ']' && s[d + 1..w] == t.newName
    && DeviceId(t.device)
    && |t.newName| > 0 && AllIn(t.newName, Word)
    && (w < |s| ==> !InClass(s[w], Word))
  }

  /** The regular expression tried at index `p` (Python's backtracking search settles on this one result). */
  function MatchAt(s: string, p: nat): Option<Tag>
    requires p <= |s|
  {
    if p < |s| && s[p] == '[' then
      var a := RunEnd(s, p + 1, LowerLetter);
      var d := RunEnd(s, a, Digit);
      if a == p + 1 || d == a || d == |s| || s[d] != ']' then None
      else
        var w := RunEnd(s, d + 1, Word);
        if w == d + 1 then None else Some(Tag(s[p + 1..d], s[d + 1..w]))
    else None
  }

  /** What MatchAt finds is a match of the pattern. */
  lemma MatchAtSound(s: string, p: nat)
    requires p <= |s| && MatchAt(s, p).Some?
    ensures TagAt(s, p, MatchAt(s, p).value)
  {
    var t := MatchAt(s, p).value;
    var a := RunEnd(s, p + 1, LowerLetter);
    var m := a - (p + 1);
    assert t.device[..m] == s[p + 1..a];
    assert t.device[m..] == s[a..p + 1 + |t.device|];
    assert LettersThenDigits(t.device, m);
  }

  /** Every match of the pattern at `p` is the one MatchAt finds. */
  lemma MatchAtComplete(s: string, p: nat, t: Tag)
    requires TagAt(s, p, t)
    ensures MatchAt(s, p) == Some(t)
  {
    var m :| LettersThenDigits(t.device, m);
    MatchAtFromParts(s, p, t.device, m, t.newName);
  }

  lemma MatchAtFromParts(s: string, p: nat, dev: string, m: int, name: string)
    requires LettersThenDigits(dev, m) && |name| > 0 && AllIn(name, Word)
    requires p + |dev| + 2 + |name| <= |s|
    requires s[p] == '[' && s[p + 1..p + 1 + |dev|] == dev && s[p + 1 + |dev|] == ']'
    requires s[p + 2 + |dev|..p + 2 + |dev| + |name|] == name
    requires p + 2 + |dev| + |name| < |s| ==> !InClass(s[p + 2 + |dev| + |name|], Word)
    ensures MatchAt(s, p) == Some(Tag(dev, name))
  {
    var d := p + 1 + |dev|;
    var w := d + 1 + |name|;
    assert s[p + 1..d] == dev && s[d + 1..w] == name;
    DeviceRuns(s, p + 1, dev, m);
    WordRun(s, d + 1, name);
    MatchAtRuns(s, p, p + 1 + m, d, w);
  }

  /** The matcher at `p`, once the three greedy runs are known to end at `a`, `d` and `w`. */
  lemma MatchAtRuns(s: string, p: nat, a: nat, d: nat, w: nat)
    requires p < |s| && s[p] == '['
    requires p + 1 < a < d && d + 1 < w <= |s| && s[d] == ']'
    requires RunEnd(s, p + 1, LowerLetter) == a && RunEnd(s, a, Digit) == d && RunEnd(s, d + 1, Word) == w
    ensures MatchAt(s, p) == Some(Tag(s[p + 1..d], s[d + 1..w]))
  {
  }

  /** The greedy runs of letters and then digits stop exactly where the device id does. */
  lemma DeviceRuns(s: string, k: nat, dev: string, m: int)
    requires LettersThenDigits(dev, m)
    requires k + |dev| < |s| && s[k..k + |dev|] == dev && s[k + |dev|] == ']'
    ensures RunEnd(s, k, LowerLetter) == k + m
    ensures RunEnd(s, k + m, Digit) == k + |dev|
  {
    var a, d := k + m, k + |dev|;
    forall j | k <= j < a ensures InClass(s[j], LowerLetter) {
      assert s[j] == dev[..m][j - k];
    }
    assert s[a] == dev[m..][0];
    RunEndIs(s, k, a, LowerLetter);
    forall j | a <= j < d ensures InClass(s[j], Digit) {
      assert s[j] == dev[m..][j - a];
    }
    RunEndIs(s, a, d, Digit);
  }

  /** The greedy word run stops exactly where a maximal word does. */
  lemma WordRun(s: string, k: nat, name: string)
    requires k + |name| <= |s| && s[k..k + |name|] == name && AllIn(name, Word)
    requires k + |name| < |s| ==> !InClass(s[k + |name|], Word)
    ensures RunEnd(s, k, Word) == k + |name|
  {
    forall j | k <= j < k + |name| ensures InClass(s[j], Word) {
      assert s[j] == name[j - k];
    }
    RunEndIs(s, k, k + |name|, Word);
  }

  /** The first index at or after `p` where the pattern matches, or `|s|`. */
  function FirstMatch(s: string, p: nat): (q: nat)
    requires p <= |s|
    ensures p <= q <= |s|
    ensures forall j :: p <= j < q ==> MatchAt(s, j).None?
    ensures q < |s| ==> MatchAt(s, q).Some?
    decreases |s| - p
  {
    if p == |s| || MatchAt(s, p).Some? then p else FirstMatch(s, p + 1)
  }

  /** `re.search(r"\[([a-z]+\d+)\](\w+)", line)`: the leftmost match, if any. */
  function Search(line: string): Option<Tag>
  {
    var q := FirstMatch(line, 0);
    if q < |line| then MatchAt(line, q) else None
  }

  /** Search finds a match exactly when the line holds one, and then the leftmost one. */
  lemma SearchLeftmost(line: string, p: nat, t: Tag)
    requires TagAt(line, p, t)
    requires forall q: nat, u :: q < p ==> !TagAt(line, q, u)
    ensures Search(line) == Some(t)
  {
    MatchAtComplete(line, p, t);
    var q := FirstMatch(line, 0);
    if q < p {
      MatchAtSound(line, q);
    }
  }

  lemma SearchSound(line: string)
    requires Search(line).Some?
    ensures exists p: nat :: p < |line| && TagAt(line, p, Search(line).value)
  {
    MatchAtSound(line, FirstMatch(line, 0));
  }

  const Marker := "monitor mode"

  /** The index of the first line that mentions the marker, or `|lines|`. */
  function MarkerLine(lines: seq<string>, k: nat): (i: nat)
    requires k <= |lines|
    ensures k <= i <= |lines|
    ensures forall j :: k <= j < i ==> !Contains(lines[j], Marker)
    ensures i < |lines| ==> Contains(lines[i], Marker)
    decreases |lines| - k
  {
    if k == |lines| || Contains(lines[k], Marker) then k else MarkerLine(lines, k + 1)
  }

  /**
   * The parse of the `airmon-ng start` output: only the first line that
   * mentions "monitor mode" is searched, and a miss there is a miss
   * altogether.
   */
  function ParseAnnouncement(out: string): Option<Tag>
  {
    var lines := Split(out, '\n', -1);
    var i := MarkerLine(lines, 0);
    if i < |lines| then Search(lines[i]) else None
  }

  lemma NoNewlineInTag(dev: string, m: int, name: string)
    requires LettersThenDigits(dev, m) && AllIn(name, Word)
    ensures '\n' !in dev && '\n' !in name
  {
    assert dev == dev[..m] + dev[m..];
    assert '\n' !in dev[..m] && '\n' !in dev[m..];
  }

  lemma OccursInMiddle(a: string, sub: string, b: string)
    ensures Contains(a + sub + b, sub)
  {
    assert OccursAt(a + sub + b, sub, |a|) by {
      assert (a + sub + b)[|a|..|a| + |sub|] == sub;
    }
    ContainsAt(a + sub + b, sub);
  }

  /** In `prefix + tail`, a match at the start of the tail is the leftmost one when `prefix` has no "[". */
  lemma SearchAfterPrefix(prefix: string, tail: string, t: Tag)
    requires '[' !in prefix
    requires MatchAt(prefix + tail, |prefix|) == Some(t)
    ensures Search(prefix + tail) == Some(t)
  {
    var line := prefix + tail;
    forall j | 0 <= j < |prefix| ensures MatchAt(line, j).None? {
      assert line[j] == prefix[j];
    }
  }

  /**
   * A single-line announcement whose text before the first "[" mentions the
   * marker yields the device id and the word that follow that "[".
   */
  lemma AnnouncedTag(prefix: string, dev: string, m: int, name: string, suffix: string)
    requires '\n' !in prefix && '\n' !in suffix && '[' !in prefix
    requires Contains(prefix, Marker)
    requires LettersThenDigits(dev, m) && |name| > 0 && AllIn(name, Word)
    requires |suffix| > 0 ==> !InClass(suffix[0], Word)
    ensures ParseAnnouncement(prefix + "[" + dev + "]" + name + suffix) == Some(Tag(dev, name))
  {
    var tail := "[" + dev + "]" + name + suffix;
    assert prefix + tail == prefix + "[" + dev + "]" + name + suffix;
    TagLine(prefix, dev, m, name, suffix);
    ContainsPrefix(prefix, tail, Marker);
    SingleLine(prefix, tail);
  }

  /** The bracketed tag after a prefix without "[" is found by the search, and adds no line break. */
  lemma TagLine(prefix: string, dev: string, m: int, name: string, suffix: string)
    requires '\n' !in suffix && '[' !in prefix
    requires LettersThenDigits(dev, m) && |name| > 0 && AllIn(name, Word)
    requires |suffix| > 0 ==> !InClass(suffix[0], Word)
    ensures '\n' !in "[" + dev + "]" + name + suffix
    ensures Search(prefix + ("[" + dev + "]" + name + suffix)) == Some(Tag(dev, name))
  {
    NoNewlineInTag(dev, m, name);
    TagAtHead(prefix, dev, m, name, suffix);
    SearchAfterPrefix(prefix, "[" + dev + "]" + name + suffix, Tag(dev, name));
  }

  /** Output made of one line that mentions the marker is parsed by searching that line. */
  lemma SingleLine(prefix: string, tail: string)
    requires '\n' !in prefix && '\n' !in tail && Contains(prefix + tail, Marker)
    ensures ParseAnnouncement(prefix + tail) == Search(prefix + tail)
  {
    SplitWithoutSeparator(prefix + tail, '\n');
  }

  lemma ContainsPrefix(a: string, b: string, sub: string)
    requires Contains(a, sub)
    ensures Contains(a + b, sub)
  {
    ContainsAt(a, sub);
    var k :| OccursAt(a, sub, k);
    assert (a + b)[k..k + |sub|] == a[k..k + |sub|];
    assert OccursAt(a + b, sub, k);
    ContainsAt(a + b, sub);
  }

  lemma TagAtHead(prefix: string, dev: string, m: int, name: string, suffix: string)
    requires LettersThenDigits(dev, m) && |name| > 0 && AllIn(name, Word)
    requires |suffix| > 0 ==> !InClass(suffix[0], Word)
    ensures MatchAt(prefix + ("[" + dev + "]" + name + suffix), |prefix|) == Some(Tag(dev, name))
  {
    var line := prefix + ("[" + dev + "]" + name + suffix);
    var p := |prefix|;
    assert line[p + 1..p + 1 + |dev|] == dev;
    assert line[p + 2 + |dev|..p + 2 + |dev| + |name|] == name;
    MatchAtFromParts(line, p, dev, m, name);
  }

  /** The text airmon-ng prints before the first bracket when it renames an interface. */
  const RenamePrefix := "\t\t(mac80211 " + Marker + " vif enabled for "

  /** The text it prints after the old name. */
  const RenameSuffix := " on [phy0]wlan0mon)"

  /**
   * The line airmon-ng prints on a rename,
   * "(mac80211 monitor mode vif enabled for [phy0]wlan0 on [phy0]wlan0mon)":
   * the search stops at the first bracket, so the second group is the old
   * name "wlan0", not the new "wlan0mon".
   */
  lemma RenameAnnouncement()
    ensures ParseAnnouncement(RenamePrefix + "[" + "phy0" + "]" + "wlan0" + RenameSuffix) == Some(Tag("phy0", "wlan0"))
  {
    RenamePrefixFacts();
    RenameSuffixFacts();
    RenameTagFacts();
    AnnouncedTag(RenamePrefix, "phy0", 3, "wlan0", RenameSuffix);
  }

  lemma RenamePrefixFacts()
    ensures '\n' !in RenamePrefix && '[' !in RenamePrefix && Contains(RenamePrefix, Marker)
  {
    OccursInMiddle("\t\t(mac80211 ", Marker, " vif enabled for ");
  }

  lemma RenameSuffixFacts()
    ensures '\n' !in RenameSuffix && |RenameSuffix| > 0 && !InClass(RenameSuffix[0], Word)
  {
  }

  lemma RenameTagFacts()
    ensures LettersThenDigits("phy0", 3) && |"wlan0"| > 0 && AllIn("wlan0", Word)
  {
    assert "phy0"[..3] == "phy";
    assert "phy0"[3..] == "0";
  }

  /**
   * Only the first line that mentions the marker is searched: lines before it
   * do not mention it, and whatever follows it is never looked at.
   */
  lemma FirstMarkerLineDecides(before: seq<string>, line: string, after: seq<string>)
    requires forall k :: 0 <= k < |before| ==> '\n' !in before[k] && !Contains(before[k], Marker)
    requires forall k :: 0 <= k < |after| ==> '\n' !in after[k]
    requires '\n' !in line && Contains(line, Marker)
    ensures ParseAnnouncement(Join(before + [line] + after, '\n')) == Search(line)
  {
    var lines := before + [line] + after;
    NoNewlineInLines(before, line, after);
    SplitJoin(lines, '\n');
    MarkerLineAfter(before, line, after);
  }

  lemma NoNewlineInLines(before: seq<string>, line: string, after: seq<string>)
    requires forall k :: 0 <= k < |before| ==> '\n' !in before[k]
    requires forall k :: 0 <= k < |after| ==> '\n' !in after[k]
    requires '\n' !in line
    ensures forall k :: 0 <= k < |before + [line] + after| ==> '\n' !in (before + [line] + after)[k]
  {
    var lines := before + [line] + after;
    forall k | 0 <= k < |lines| ensures '\n' !in lines[k] {
      if k < |before| { assert lines[k] == before[k]; }
      else if k > |before| { assert lines[k] == after[k - |before| - 1]; }
    }
  }

  /** The first line that mentions the marker is `line`, the one after `before`. */
  lemma MarkerLineAfter(before: seq<string>, line: string, after: seq<string>)
    requires forall k :: 0 <= k < |before| ==> !Contains(before[k], Marker)
    requires Contains(line, Marker)
    ensures MarkerLine(before + [line] + after, 0) == |before|
    ensures (before + [line] + after)[|before|] == line
  {
    var lines := before + [line] + after;
    assert forall k :: 0 <= k < |before| ==> lines[k] == before[k];
    MarkerLineIs(lines, |before|);
  }

  lemma MarkerLineIs(lines: seq<string>, i: nat)
    requires i <= |lines| && (i < |lines| ==> Contains(lines[i], Marker))
    requires forall k :: 0 <= k < i ==> !Contains(lines[k], Marker)
    ensures MarkerLine(lines, 0) == i
  {
  }
}

=== FILE: layout.dfy ===
/**
 * The table of the `targets` command (commands/wifi.py, Targets.run): one
 * block of rows per target, one column per header, the cells of a connected
 * target in bold. A list-valued field spreads down its column; the rows it
 * adds are shared by all columns of the block, and rows whose cells are all
 * "" are dropped.
 *
 * A cell keeps the value it shows and a bold flag. A bold cell is never ""
 * (the escape codes are part of the text), so only a plain "" cell is empty.
 */
module Layout {
  import opened Wrappers
  import opened Text
  import opened Session

  const Headers: seq<string> := ["ESSID", "BSSID", "Channel", "Power", "Enc", "Cipher", "Auth",
                                 "Password", "Stations"]

  datatype Cell = Cell(value: Value, bold: bool)

  /** The "" a fresh row is filled with. */
  const Blank := Cell(Text(""), false)

  type Row = seq<Cell>

  function BlankRow(): (r: Row)
    ensures |r| == |Headers| && forall k :: 0 <= k < |r| ==> r[k] == Blank
  {
    seq(|Headers|, _ => Blank)
  }

  /** `all(v == "" for v in r)`. */
  predicate AllBlank(r: Row)
  {
    forall k :: 0 <= k < |r| ==> r[k] == Blank
  }

  /** The values a field shows down its column: the items of a list, else the value itself. */
  function Spread(v: Value): seq<Value>
  {
    if v.Items? then v.xs else [v]
  }

  /** How many rows a column appends to the block: one, plus one per item after the first. */
  function Added(v: Value): (n: nat)
    ensures n >= 1 && n >= |Spread(v)|
  {
    if v.Items? && |v.xs| > 1 then |v.xs| else 1
  }

  /** The number of rows of a block once the columns `vals` are laid out. */
  function RowCount(vals: seq<Value>): nat
  {
    if |vals| == 0 then 0 else RowCount(vals[..|vals| - 1]) + Added(vals[|vals| - 1])
  }

  /** Every column's values fit in the rows of the block. */
  lemma {:induction false} RowCountCovers(vals: seq<Value>, k: nat)
    requires k < |vals|
    ensures |Spread(vals[k])| <= Added(vals[k]) <= RowCount(vals)
  {
    if k < |vals| - 1 {
      RowCountCovers(vals[..|vals| - 1], k);
    }
  }

  /** The cell at row `j`, column `k` of a block: the column's `j`-th value, or "". */
  function CellAt(vals: seq<Value>, connected: bool, j: nat, k: nat): Cell
    requires k < |vals|
  {
    var spread := Spread(vals[k]);
    if j < |spread| then Cell(spread[j], connected) else Blank
  }

  /** A target's block, before empty rows are dropped. */
  function Block(vals: seq<Value>, connected: bool): seq<Row>
  {
    seq(RowCount(vals), j requires 0 <= j => seq(|vals|, k requires 0 <= k < |vals| => CellAt(vals, connected, j, k)))
  }

  /** The rows that are not all "", in their order. */
  function DropBlank(rows: seq<Row>): (kept: seq<Row>)
    ensures |kept| <= |rows|
    ensures forall r :: r in kept ==> r in rows && !AllBlank(r)
    ensures forall r :: r in rows && !AllBlank(r) ==> r in kept
  {
    if |rows| == 0 then []
    else
      var last := rows[|rows| - 1];
      var front := DropBlank(rows[..|rows| - 1]);
      assert rows == rows[..|rows| - 1] + [last];
      if AllBlank(last) then front else front + [last]
  }

  /**
   * Dropping works row by row: a row is kept, once and in place, exactly when
   * it is not all "". Equal rows are each kept, and the order is unchanged.
   */
  lemma {:induction false} DropBlankAppend(a: seq<Row>, b: seq<Row>)
    ensures DropBlank(a + b) == DropBlank(a) + DropBlank(b)
    decreases |b|
  {
    if |b| == 0 {
      assert a + b == a;
    } else {
      var last := b[|b| - 1];
      var front := b[..|b| - 1];
      assert (a + b)[..|a + b| - 1] == a + front && (a + b)[|a + b| - 1] == last;
      DropBlankAppend(a, front);
    }
  }

  lemma DropBlankOne(r: Row)
    ensures DropBlank([r]) == if AllBlank(r) then [] else [r]
  {
    assert [r][..0] == [];
  }

  /** Dropping is all there is to it: rows from `h` on that are all "" add nothing. */
  lemma {:induction false} BlankTailDropped(rows: seq<Row>, h: nat)
    requires h <= |rows|
    requires forall j :: h <= j < |rows| ==> AllBlank(rows[j])
    ensures DropBlank(rows) == DropBlank(rows[..h])
    ensures |DropBlank(rows)| <= h
    decreases |rows|
  {
    if |rows| > h {
      var front := rows[..|rows| - 1];
      assert AllBlank(rows[|rows| - 1]);
      assert front[..h] == rows[..h];
      assert forall j :: h <= j < |front| ==> front[j] == rows[j];
      assert DropBlank(rows) == DropBlank(front);
      BlankTailDropped(front, h);
    } else {
      assert rows[..h] == rows;
    }
  }

  /** The dict key of the header in column `k`: `h.lower()`. */
  function Key(k: nat): string
    requires k < |Headers|
  {
    Lower(Headers[k])
  }

  /** The values of the first `n` columns, or KeyError for the first header the target lacks. */
  function FieldValues(target: Target, n: nat): (r: Result<seq<Value>>)
    requires n <= |Headers|
    ensures r.Success? ==> (|r.value| == n
                            && forall k :: 0 <= k < n ==> Key(k) in target && r.value[k] == target[Key(k)])
    ensures r.Failure? <==> exists k :: 0 <= k < n && Key(k) !in target
  {
    if n == 0 then Success([])
    else
      match FieldValues(target, n - 1)
      case Failure(e) => Failure(e)
      case Success(vals) =>
        if Key(n - 1) in target then Success(vals + [target[Key(n - 1)]]) else Failure(KeyError(Key(n - 1)))
  }

  /** The rows `targets` shows for one target. */
  function TargetRows(target: Target, connected: bool): Result<seq<Row>>
  {
    match FieldValues(target, |Headers|)
    case Failure(e) => Failure(e)
    case Success(vals) => Success(DropBlank(Block(vals, connected)))
  }

  /** A list field of `n` items fills rows 0 to n-1 of its column, in order. */
  lemma ListFillsColumn(vals: seq<Value>, connected: bool, k: nat, j: nat)
    requires k < |vals| && vals[k].Items? && j < |vals[k].xs|
    ensures j < |Block(vals, connected)|
    ensures Block(vals, connected)[j][k] == Cell(vals[k].xs[j], connected)
  {
    RowCountCovers(vals, k);
  }

  /** A cell that shows a value is bold exactly when the target is connected. */
  lemma {:induction false} BoldIffConnected(vals: seq<Value>, connected: bool, r: Row, k: nat)
    requires r in DropBlank(Block(vals, connected)) && k < |r|
    ensures r[k] == Blank || r[k].bold == connected
  {
  }

  /**
   * However many rows the list fields append, a target shows no more rows
   * than its longest column has values (and at least one row's worth).
   */
  lemma ShownRowsBound(vals: seq<Value>, connected: bool, h: nat)
    requires forall k :: 0 <= k < |vals| ==> |Spread(vals[k])| <= h
    ensures |DropBlank(Block(vals, connected))| <= h
  {
    var rows := Block(vals, connected);
    if h <= |rows| {
      forall j | h <= j < |rows| ensures AllBlank(rows[j]) {
      }
      BlankTailDropped(rows, h);
    }
  }

  /**
   * `rows` is a block whose first `|vals|` columns are laid out from `vals`,
   * with `extra` fresh rows appended after them, and "" everywhere else.
   */
  ghost predicate Grid(rows: seq<Row>, vals: seq<Value>, extra: nat, connected: bool)
  {
    && |rows| == RowCount(vals) + extra
    && (forall j :: 0 <= j < |rows| ==> |rows[j]| == |Headers|)
    && forall j, k :: 0 <= j < |rows| && 0 <= k < |Headers| ==>
         rows[j][k] == if k < |vals| then CellAt(vals, connected, j, k) else Blank
  }

  /** Laying out a further column leaves the cells of the earlier ones as they were. */
  lemma CellAtExtend(vals: seq<Value>, v: Value, connected: bool, j: nat, k: nat)
    requires k < |vals|
    ensures CellAt(vals + [v], connected, j, k) == CellAt(vals, connected, j, k)
  {
    assert (vals + [v])[k] == vals[k];
  }

  /** Rows below the laid-out block are "" in every laid-out column. */
  lemma CellAtBeyond(vals: seq<Value>, connected: bool, j: nat, k: nat)
    requires k < |vals| && RowCount(vals) <= j
    ensures CellAt(vals, connected, j, k) == Blank
  {
    RowCountCovers(vals, k);
  }

  /** Appending a fresh row of "" keeps the shape of the grid. */
  lemma GridAppendBlank(rows: seq<Row>, vals: seq<Value>, extra: nat, connected: bool)
    requires Grid(rows, vals, extra, connected)
    ensures Grid(rows + [BlankRow()], vals, extra + 1, connected)
  {
    var rows' := rows + [BlankRow()];
    forall j, k | 0 <= j < |rows'| && 0 <= k < |Headers|
      ensures rows'[j][k] == if k < |vals| then CellAt(vals, connected, j, k) else Blank
    {
      if j == |rows| && k < |vals| {
        CellAtBeyond(vals, connected, j, k);
      }
    }
  }

  /** A missing field ends the layout: KeyError names the first header the target lacks. */
  lemma {:induction false} MissingFieldSticks(target: Target, i: nat, n: nat)
    requires i < n <= |Headers|
    requires FieldValues(target, i).Success? && Key(i) !in target
    ensures FieldValues(target, n) == Failure(KeyError(Key(i)))
    decreases n
  {
    if n > i + 1 {
      MissingFieldSticks(target, i, n - 1);
    }
  }

  /** A grid with every column laid out is the block. */
  lemma GridIsBlock(rows: seq<Row>, vals: seq<Value>, connected: bool)
    requires |vals| == |Headers| && Grid(rows, vals, 0, connected)
    ensures rows == Block(vals, connected)
  {
    var block := Block(vals, connected);
    forall j | 0 <= j < |rows| ensures rows[j] == block[j] {
      assert |rows[j]| == |block[j]|;
      forall k | 0 <= k < |Headers| ensures rows[j][k] == block[j][k] {
      }
    }
  }

  /**
   * The work one column does in `Targets.run` once its first row is appended:
   * one more row per list item after the first, then the values written down
   * the column.
   */
  method SpreadColumn(rows: seq<Row>, ghost vals: seq<Value>, i: nat, v: Value, connected: bool)
      returns (rows': seq<Row>)
    requires i == |vals| < |Headers| && Grid(rows, vals, 1, connected)
    ensures Grid(rows', vals + [v], 0, connected)
  {
    rows' := rows;
    var items: seq<Value>;
    if v.Items? {
      items := v.xs;
      var extra := if |items| > 0 then |items| - 1 else 0;
      for j := 0 to extra
        invariant Grid(rows', vals, 1 + j, connected)
      {
        GridAppendBlank(rows', vals, 1 + j, connected);
        rows' := rows' + [BlankRow()];
      }
    } else {
      items := [v];
    }
    ghost var vals' := vals + [v];
    assert vals'[..|vals'| - 1] == vals;
    assert |rows'| == RowCount(vals');
    forall j, k | 0 <= j < |rows'| && 0 <= k < i
      ensures rows'[j][k] == CellAt(vals', connected, j, k)
    {
      CellAtExtend(vals, v, connected, j, k);
    }
    for j := 0 to |items|
      invariant |rows'| == RowCount(vals')
      invariant forall j' :: 0 <= j' < |rows'| ==> |rows'[j']| == |Headers|
      invariant forall j', k :: 0 <= j' < |rows'| && 0 <= k < |Headers| ==>
                  rows'[j'][k] == if k < i || (k == i && j' < j) then CellAt(vals', connected, j', k) else Blank
    {
      rows' := rows'[j := rows'[j][i := Cell(items[j], connected)]];
    }
  }

  /** The rows that are not all "", picked out one by one. */
  method KeepShown(rows: seq<Row>) returns (kept: seq<Row>)
    ensures kept == DropBlank(rows)
  {
    kept := [];
    for j := 0 to |rows|
      invariant kept == DropBlank(rows[..j])
    {
      assert rows[..j + 1][..j] == rows[..j];
      if !AllBlank(rows[j]) {
        kept := kept + [rows[j]];
      }
    }
    assert rows[..|rows|] == rows;
  }

  /** Builds one target's rows as `Targets.run` does, column by column. */
  method LayoutTarget(target: Target, connected: bool) returns (r: Result<seq<Row>>)
    ensures r == TargetRows(target, connected)
  {
    var rows: seq<Row> := [];
    ghost var vals: seq<Value> := [];
    for i := 0 to |Headers|
      invariant FieldValues(target, i) == Success(vals)
      invariant Grid(rows, vals, 0, connected)
    {
      GridAppendBlank(rows, vals, 0, connected);
      rows := rows + [BlankRow()];
      var key := Lower(Headers[i]);
      if key !in target {
        MissingFieldSticks(target, i, |Headers|);
        return Failure(KeyError(key));
      }
      var v := target[key];
      rows := SpreadColumn(rows, vals, i, v, connected);
      vals := vals + [v];
    }
    GridIsBlock(rows, vals, connected);
    var kept := KeepShown(rows);
    r := Success(kept);
  }
}

=== FILE: rfkill.dfy ===
/**
 * Reading the output of `rfkill list` after a switch to monitor mode
 * (commands/wifi.py, Toggle.run): every line is cut with
 * `line.split(":", 2)`, and each line whose second field, stripped, names
 * the announced device gets `rfkill unblock <first field>`. A line with no
 * ":" has no second field: reading it raises IndexError, which ends the scan.
 */
module Rfkill {
  import opened Text

  /** `line.split(":", 2)`. */
  function Fields(line: string): seq<string>
  {
    Split(line, ':', 2)
  }

  /** The line has the second field that Toggle.run reads. */
  predicate WellFormed(line: string)
  {
    |Fields(line)| >= 2
  }

  /** The line is an entry of the announced device. */
  predicate Names(line: string, device: string)
  {
    WellFormed(line) && Strip(Fields(line)[1]) == device
  }

  /** The entry id that `rfkill unblock` is given. */
  function Id(line: string): string
  {
    Fields(line)[0]
  }

  /** A line can be read exactly when it holds a ":". */
  lemma WellFormedIffColon(line: string)
    ensures WellFormed(line) <==> ':' in line
  {
    SplitCuts(line, ':', 2);
  }

  /**
   * The fields of an rfkill entry such as "0: phy0: Wireless LAN": the id
   * before the first ":", the device between the first and the second, and
   * the rest, which may hold more ":".
   */
  lemma FieldsOfEntry(id: string, device: string, rest: string)
    requires ':' !in id && ':' !in device
    ensures Fields(id + ":" + device + ":" + rest) == [id, device, rest]
  {
    assert id + ":" + device + ":" + rest == id + [':'] + (device + [':'] + rest);
    SplitAtFirst(id, ':', device + [':'] + rest, 2);
    SplitAtFirst(device, ':', rest, 1);
    SplitNoCuts(rest, ':');
  }

  /** What the scan of the listing did: the ids it unblocked, and whether it reached the end. */
  datatype Scan = Scan(ids: seq<string>, complete: bool)

  /** The scan of `lines` for `device`, stopping at the first line it cannot read. */
  function UnblockScan(lines: seq<string>, device: string): (r: Scan)
    ensures |r.ids| <= |lines|
  {
    if |lines| == 0 then Scan([], true)
    else if !WellFormed(lines[0]) then Scan([], false)
    else
      var rest := UnblockScan(lines[1..], device);
      if Names(lines[0], device) then Scan([Id(lines[0])] + rest.ids, rest.complete) else rest
  }

  /** The scan reaches the end of the listing exactly when every line can be read. */
  lemma {:induction false} ScanCompleteIff(lines: seq<string>, device: string)
    ensures UnblockScan(lines, device).complete <==> forall k :: 0 <= k < |lines| ==> WellFormed(lines[k])
  {
    if |lines| > 0 {
      ScanCompleteIff(lines[1..], device);
      assert forall k :: 1 <= k < |lines| ==> lines[k] == lines[1..][k - 1];
    }
  }

  /** Every line of the listing holds a ":". */
  predicate AllColons(lines: seq<string>)
  {
    forall k :: 0 <= k < |lines| ==> ':' in lines[k]
  }

  /** The scan reaches the end of the listing exactly when every line holds a ":". */
  lemma {:induction false} ScanCompleteIffColon(lines: seq<string>, device: string)
    ensures UnblockScan(lines, device).complete <==> AllColons(lines)
  {
    if |lines| > 0 {
      WellFormedIffColon(lines[0]);
      ScanCompleteIffColon(lines[1..], device);
      AllColonsCons(lines);
    }
  }

  lemma AllColonsCons(lines: seq<string>)
    requires |lines| > 0
    ensures AllColons(lines) <==> ':' in lines[0] && AllColons(lines[1..])
  {
    assert forall k :: 1 <= k < |lines| ==> lines[k] == lines[1..][k - 1];
  }

  /** When every line can be read, every entry of the device is unblocked, not only the first. */
  lemma {:induction false} EveryMatchUnblocked(lines: seq<string>, device: string, k: nat)
    requires forall j :: 0 <= j < |lines| ==> WellFormed(lines[j])
    requires k < |lines| && Names(lines[k], device)
    ensures Id(lines[k]) in UnblockScan(lines, device).ids
  {
    if k > 0 {
      assert lines[1..][k - 1] == lines[k];
      EveryMatchUnblocked(lines[1..], device, k - 1);
    }
  }

  /** Line `k` names the device with entry `id`, and every line before it can be read. */
  predicate ReachedEntry(lines: seq<string>, device: string, k: int, id: string)
  {
    0 <= k < |lines| && Names(lines[k], device) && Id(lines[k]) == id
    && forall j :: 0 <= j < k ==> WellFormed(lines[j])
  }

  /** Only entries of the device, and only lines before the first unreadable one, are unblocked. */
  lemma {:induction false} OnlyMatchesUnblocked(lines: seq<string>, device: string, id: string)
    requires id in UnblockScan(lines, device).ids
    ensures exists k :: ReachedEntry(lines, device, k, id)
  {
    assert |lines| > 0 && WellFormed(lines[0]);
    ScanHead(lines, device);
    if Names(lines[0], device) && id == Id(lines[0]) {
      assert ReachedEntry(lines, device, 0, id);
    } else {
      assert id in UnblockScan(lines[1..], device).ids;
      OnlyMatchesUnblocked(lines[1..], device, id);
      var k :| ReachedEntry(lines[1..], device, k, id);
      ShiftEntry(lines, device, k, id);
    }
  }

  lemma ShiftEntry(lines: seq<string>, device: string, k: int, id: string)
    requires |lines| > 0 && WellFormed(lines[0]) && ReachedEntry(lines[1..], device, k, id)
    ensures ReachedEntry(lines, device, k + 1, id)
  {
    assert lines[1..][k] == lines[k + 1];
    forall j | 0 <= j < k + 1 ensures WellFormed(lines[j]) {
      if j > 0 { assert lines[j] == lines[1..][j - 1]; }
    }
  }

  /** The unblocks issued before an unreadable line are those of the lines before it. */
  lemma {:induction false} StopsAtUnreadable(lines: seq<string>, device: string, b: nat)
    requires b < |lines| && !WellFormed(lines[b])
    requires forall j :: 0 <= j < b ==> WellFormed(lines[j])
    ensures UnblockScan(lines, device).ids == UnblockScan(lines[..b], device).ids
    ensures !UnblockScan(lines, device).complete
  {
    if b > 0 {
      assert lines[1..][..b - 1] == lines[..b][1..];
      assert lines[1..][b - 1] == lines[b];
      StopsAtUnreadable(lines[1..], device, b - 1);
    }
  }

  /** One more line read by a scan that has not stopped. */
  function Step(s: Scan, line: string, device: string): Scan
  {
    if !WellFormed(line) then Scan(s.ids, false)
    else if Names(line, device) then Scan(s.ids + [Id(line)], true)
    else s
  }

  /** The scan read one line further, as the loop in Toggle.run does. */
  lemma {:induction false} ScanExtend(lines: seq<string>, device: string, line: string)
    requires UnblockScan(lines, device).complete
    ensures UnblockScan(lines + [line], device) == Step(UnblockScan(lines, device), line, device)
  {
    if |lines| == 0 {
      assert lines + [line] == [line];
      assert [line][1..] == [];
    } else {
      var all := lines + [line];
      assert all[0] == lines[0] && all[1..] == lines[1..] + [line];
      ScanHead(lines, device);
      ScanExtend(lines[1..], device, line);
      ScanHead(all, device);
      var r := UnblockScan(lines[1..], device);
      if Names(lines[0], device) {
        StepPrepend(Id(lines[0]), r, line, device);
      }
    }
  }

  /** Reading a line commutes with an entry unblocked before it. */
  lemma StepPrepend(id: string, r: Scan, line: string, device: string)
    requires r.complete
    ensures Step(Scan([id] + r.ids, r.complete), line, device) == Scan([id] + Step(r, line, device).ids, Step(r, line, device).complete)
  {
    if WellFormed(line) && Names(line, device) {
      assert [id] + r.ids + [Id(line)] == [id] + (r.ids + [Id(line)]);
    }
  }

  /** One unfolding of the scan at a readable first line. */
  lemma ScanHead(lines: seq<string>, device: string)
    requires |lines| > 0 && (WellFormed(lines[0]) || UnblockScan(lines, device).complete)
    ensures WellFormed(lines[0])
    ensures UnblockScan(lines, device) ==
      var rest := UnblockScan(lines[1..], device);
      if Names(lines[0], device) then Scan([Id(lines[0])] + rest.ids, rest.complete) else rest
  {
  }
}

=== FILE: state.dfy ===
/**
 * The values held in the console's shared state (commands/wifi.py):
 * `INTERFACES` maps an interface name to the list `[monitor, boundEssid]`,
 * `TARGETS` maps an ESSID to a dict of fields, `PASSWORDS` maps an ESSID to
 * its password.
 */
module Session {
  import opened Wrappers

  /** A Python value held in the shared state: None, a bool, a string, a number, or a list/tuple of values. */
  datatype Value = Null | Flag(b: bool) | Text(s: string) | Number(n: int) | Items(xs: seq<Value>)

  /** An `INTERFACES` entry `[monitor, boundEssid]`; an unbound interface holds None. */
  datatype Iface = Iface(monitor: bool, bound: Option<string>)

  /** A target's field dict. */
  type Target = map<string, Value>

  /** `any(x[1] == essid for x in INTERFACES.values())`. */
  predicate IsConnected(interfaces: map<string, Iface>, essid: string)
  {
    exists n :: n in interfaces && interfaces[n].bound == Some(essid)
  }

  /** The ESSIDs some interface is bound to. */
  function ConnectedEssids(interfaces: map<string, Iface>): (r: set<string>)
    ensures forall e :: e in r <==> IsConnected(interfaces, e)
    ensures (forall n :: n in interfaces ==> interfaces[n].bound.None?) ==> r == {}
  {
    set n | n in interfaces && interfaces[n].bound.Some? :: interfaces[n].bound.value
  }
}

=== FILE: text.dfy ===
/**
 * The handful of Python `str` operations the wifi commands rely on, with the
 * semantics of CPython 3: `s.split(sep, maxsplit)` for a one-character
 * separator, `s.splitlines()`, `s.strip()`, `sub in s` and `s.lower()` on
 * ASCII text.
 */
module Text {

  /** `sep.join(parts)`. */
  function Join(parts: seq<string>, sep: char): string
  {
    if |parts| == 0 then ""
    else if |parts| == 1 then parts[0]
    else parts[0] + [sep] + Join(parts[1..], sep)
  }

  /**
   * `s.split(sep, maxsplit)` for a one-character separator; a negative
   * `maxsplit` means "no limit", as in Python. At most `maxsplit` cuts are
   * made; SplitGlues states that the pieces glue back to `s`.
   */
  function Split(s: string, sep: char, maxsplit: int): (parts: seq<string>)
    ensures |parts| >= 1
    ensures maxsplit >= 0 ==> |parts| <= maxsplit + 1
    decreases |s|
  {
    if |s| == 0 then [""]
    else if s[0] == sep && maxsplit != 0 then
      [""] + Split(s[1..], sep, if maxsplit > 0 then maxsplit - 1 else maxsplit)
    else
      var rest := Split(s[1..], sep, maxsplit);
      [[s[0]] + rest[0]] + rest[1..]
  }

  /** The pieces glue back to `s`. */
  lemma {:induction false} SplitGlues(s: string, sep: char, maxsplit: int)
    ensures Join(Split(s, sep, maxsplit), sep) == s
    decreases |s|
  {
    if |s| == 0 {
    } else if s[0] == sep && maxsplit != 0 {
      var rest := Split(s[1..], sep, if maxsplit > 0 then maxsplit - 1 else maxsplit);
      SplitGlues(s[1..], sep, if maxsplit > 0 then maxsplit - 1 else maxsplit);
      assert Split(s, sep, maxsplit) == [""] + rest;
      JoinCons("", rest, sep);
      assert s == [sep] + s[1..];
    } else {
      SplitGlues(s[1..], sep, maxsplit);
      var rest := Split(s[1..], sep, maxsplit);
      assert Split(s, sep, maxsplit) == [[s[0]] + rest[0]] + rest[1..];
      JoinPrepend(s[0], rest, sep);
      assert s == [s[0]] + s[1..];
    }
  }

  /** A character put in front of the first piece ends up in front of the joined text. */
  lemma JoinPrepend(c: char, rest: seq<string>, sep: char)
    requires |rest| >= 1
    ensures Join([[c] + rest[0]] + rest[1..], sep) == [c] + Join(rest, sep)
  {
    if |rest| > 1 {
      JoinCons(rest[0], rest[1..], sep);
      JoinCons([c] + rest[0], rest[1..], sep);
      assert rest == [rest[0]] + rest[1..];
    }
  }

  lemma JoinCons(first: string, rest: seq<string>, sep: char)
    requires |rest| >= 1
    ensures Join([first] + rest, sep) == first + [sep] + Join(rest, sep)
  {
    assert ([first] + rest)[1..] == rest;
  }

  /** Only the last piece can still hold a separator, and none can when there is no limit. */
  lemma {:induction false} SplitPiecesClean(s: string, sep: char, maxsplit: int)
    ensures forall k :: 0 <= k < |Split(s, sep, maxsplit)| - 1 ==> sep !in Split(s, sep, maxsplit)[k]
    ensures maxsplit < 0 ==> forall k :: 0 <= k < |Split(s, sep, maxsplit)| ==> sep !in Split(s, sep, maxsplit)[k]
    decreases |s|
  {
    if |s| == 0 {
    } else if s[0] == sep && maxsplit != 0 {
      var m := if maxsplit > 0 then maxsplit - 1 else maxsplit;
      SplitPiecesClean(s[1..], sep, m);
      var rest := Split(s[1..], sep, m);
      assert Split(s, sep, maxsplit) == [""] + rest;
    } else {
      SplitPiecesClean(s[1..], sep, maxsplit);
      var rest := Split(s[1..], sep, maxsplit);
      var parts := [[s[0]] + rest[0]] + rest[1..];
      assert Split(s, sep, maxsplit) == parts;
      if |rest| > 1 || maxsplit < 0 {
        assert sep !in rest[0];
        assert sep !in [s[0]] + rest[0];
      }
      assert forall k :: 1 <= k < |parts| ==> parts[k] == rest[k];
    }
  }

  /**
   * A limited split leaves a separator in its last piece only after using up
   * all `maxsplit` cuts. With SplitGlues and SplitPiecesClean this fixes the
   * pieces: the cuts are made at the first separators.
   */
  lemma {:induction false} SplitUsesLimit(s: string, sep: char, maxsplit: int)
    ensures var parts := Split(s, sep, maxsplit);
            maxsplit >= 0 && sep in parts[|parts| - 1] ==> |parts| == maxsplit + 1
    decreases |s|
  {
    if |s| == 0 {
    } else if s[0] == sep && maxsplit != 0 {
      var m := if maxsplit > 0 then maxsplit - 1 else maxsplit;
      SplitUsesLimit(s[1..], sep, m);
      var rest := Split(s[1..], sep, m);
      assert Split(s, sep, maxsplit) == [""] + rest;
    } else {
      SplitUsesLimit(s[1..], sep, maxsplit);
      var rest := Split(s[1..], sep, maxsplit);
      var parts := [[s[0]] + rest[0]] + rest[1..];
      assert Split(s, sep, maxsplit) == parts;
      if |rest| == 1 && sep in parts[0] && s[0] != sep {
        assert sep in rest[0];
      }
      if |rest| > 1 {
        assert parts[|parts| - 1] == rest[|rest| - 1];
      }
    }
  }

  /** With no cuts left, the text is a single piece. */
  lemma {:induction false} SplitNoCuts(s: string, sep: char)
    ensures Split(s, sep, 0) == [s]
    decreases |s|
  {
    if |s| > 0 {
      SplitNoCuts(s[1..], sep);
      assert [s[0]] + s[1..] == s;
    }
  }

  /** A limited split cuts at all only when the separator occurs. */
  lemma {:induction false} SplitCuts(s: string, sep: char, maxsplit: int)
    requires maxsplit != 0
    ensures |Split(s, sep, maxsplit)| >= 2 <==> sep in s
    decreases |s|
  {
    if |s| > 0 && s[0] != sep {
      SplitCuts(s[1..], sep, maxsplit);
      assert sep in s <==> sep in s[1..];
    }
  }

  /** Text without the separator is one piece. */
  lemma {:induction false} SplitWithoutSeparator(s: string, sep: char)
    requires sep !in s
    ensures Split(s, sep, -1) == [s]
    decreases |s|
  {
    if |s| > 0 {
      assert s[0] != sep && sep !in s[1..];
      SplitWithoutSeparator(s[1..], sep);
      assert [s[0]] + s[1..] == s;
    }
  }

  /** The first piece ends at the first separator, which uses up one cut. */
  lemma {:induction false} SplitAtFirst(a: string, sep: char, rest: string, maxsplit: int)
    requires sep !in a && maxsplit != 0
    ensures Split(a + [sep] + rest, sep, maxsplit)
            == [a] + Split(rest, sep, if maxsplit > 0 then maxsplit - 1 else maxsplit)
    decreases |a|
  {
    var s := a + [sep] + rest;
    if |a| == 0 {
      assert s[1..] == rest;
    } else {
      assert s[1..] == a[1..] + [sep] + rest;
      SplitAtFirst(a[1..], sep, rest, maxsplit);
      assert [s[0]] + a[1..] == a;
    }
  }

  /** Splitting undoes joining when no piece holds the separator. */
  lemma {:induction false} SplitJoin(parts: seq<string>, sep: char)
    requires |parts| >= 1
    requires forall k :: 0 <= k < |parts| ==> sep !in parts[k]
    ensures Split(Join(parts, sep), sep, -1) == parts
  {
    if |parts| == 1 {
      SplitWithoutSeparator(parts[0], sep);
    } else {
      SplitJoin(parts[1..], sep);
      SplitAtFirst(parts[0], sep, Join(parts[1..], sep), -1);
    }
  }

  /** The line boundaries of `str.splitlines`. */
  predicate IsLineBreak(c: char)
  {
    c == '\n' || c == '\r' || c == '\U{0B}' || c == '\U{0C}' || c == '\U{1C}' || c == '\U{1D}'
    || c == '\U{1E}' || c == '\U{85}' || c == '\U{2028}' || c == '\U{2029}'
  }

  /** The index of the first line boundary at or after `k`, or `|s|`. */
  function LineEnd(s: string, k: nat): (e: nat)
    requires k <= |s|
    ensures k <= e <= |s|
    ensures forall j :: k <= j < e ==> !IsLineBreak(s[j])
    ensures e < |s| ==> IsLineBreak(s[e])
    decreases |s| - k
  {
    if k == |s| || IsLineBreak(s[k]) then k else LineEnd(s, k + 1)
  }

  predicate NoLineBreak(line: string)
  {
    forall j :: 0 <= j < |line| ==> !IsLineBreak(line[j])
  }

  /**
   * `s.splitlines()`: cut at every boundary ("\r\n" is one boundary), keep no
   * boundary characters, and yield no trailing empty line.
   */
  function SplitLines(s: string): (lines: seq<string>)
    ensures forall k :: 0 <= k < |lines| ==> NoLineBreak(lines[k])
    ensures lines == [] <==> s == []
    decreases |s|
  {
    if |s| == 0 then []
    else
      var e := LineEnd(s, 0);
      if e == |s| then [s]
      else
        var next := if s[e] == '\r' && e + 1 < |s| && s[e + 1] == '\n' then e + 2 else e + 1;
        [s[..e]] + SplitLines(s[next..])
  }

  /** Lines joined with "\n" and terminated by one come back unchanged. */
  lemma {:induction false} SplitLinesJoin(lines: seq<string>)
    requires |lines| >= 1
    requires forall k :: 0 <= k < |lines| ==> NoLineBreak(lines[k])
    ensures SplitLines(Join(lines, '\n') + "\n") == lines
  {
    var first := lines[0];
    var rest := if |lines| == 1 then "" else Join(lines[1..], '\n') + "\n";
    if |lines| == 1 {
      assert Join(lines, '\n') + "\n" == first + "\n" + rest;
      SplitLinesAtNewline(first, rest);
      assert SplitLines(rest) == [];
    } else {
      assert Join(lines, '\n') + "\n" == first + "\n" + rest;
      SplitLinesAtNewline(first, rest);
      SplitLinesJoin(lines[1..]);
      assert lines == [first] + lines[1..];
    }
  }

  /** Lines joined with "\n", with no final one, come back unchanged when the last line is not empty. */
  lemma {:induction false} SplitLinesJoinUnterminated(lines: seq<string>)
    requires |lines| >= 1 && |lines[|lines| - 1]| > 0
    requires forall k :: 0 <= k < |lines| ==> NoLineBreak(lines[k])
    ensures SplitLines(Join(lines, '\n')) == lines
  {
    if |lines| == 1 {
      SplitLinesLast(lines[0]);
    } else {
      var first := lines[0];
      var rest := Join(lines[1..], '\n');
      JoinCons(first, lines[1..], '\n');
      assert lines[1..][|lines[1..]| - 1] == lines[|lines| - 1];
      assert Join(lines, '\n') == first + "\n" + rest;
      SplitLinesAtNewline(first, rest);
      SplitLinesJoinUnterminated(lines[1..]);
      assert lines == [first] + lines[1..];
    }
  }

  /** A last line without a boundary is one line. */
  lemma SplitLinesLast(line: string)
    requires |line| > 0 && NoLineBreak(line)
    ensures SplitLines(line) == [line]
  {
    assert LineEnd(line, 0) == |line|;
  }

  /** A line ended by "\r\n" is cut off whole: the pair is one boundary. */
  lemma SplitLinesAtCrLf(first: string, rest: string)
    requires NoLineBreak(first)
    ensures SplitLines(first + "\r\n" + rest) == [first] + SplitLines(rest)
  {
    var s := first + "\r\n" + rest;
    assert s[..|first|] == first && s[|first|] == '\r' && s[|first| + 1] == '\n';
    assert LineEnd(s, 0) == |first| by {
      assert forall j :: 0 <= j < |first| ==> s[j] == first[j];
    }
    assert s[|first| + 2..] == rest;
  }

  /**
   * A line ended by any other single boundary character is cut off whole; a
   * "\r" counts alone only when no "\n" follows it.
   */
  lemma SplitLinesAtBreak(first: string, c: char, rest: string)
    requires NoLineBreak(first) && IsLineBreak(c)
    requires c == '\r' ==> |rest| == 0 || rest[0] != '\n'
    ensures SplitLines(first + [c] + rest) == [first] + SplitLines(rest)
  {
    var s := first + [c] + rest;
    assert s[..|first|] == first && s[|first|] == c;
    assert LineEnd(s, 0) == |first| by {
      assert forall j :: 0 <= j < |first| ==> s[j] == first[j];
    }
    assert s[|first| + 1..] == rest;
  }

  /** A line ended by "\n" is cut off whole. */
  lemma SplitLinesAtNewline(first: string, rest: string)
    requires NoLineBreak(first)
    ensures SplitLines(first + "\n" + rest) == [first] + SplitLines(rest)
  {
    var s := first + "\n" + rest;
    assert s[..|first|] == first && s[|first|] == '\n';
    LineEndAfter(s, first);
    assert s[|first| + 1..] == rest;
  }

  lemma LineEndAfter(s: string, first: string)
    requires NoLineBreak(first)
    requires |first| < |s| && s[..|first|] == first && s[|first|] == '\n'
    ensures LineEnd(s, 0) == |first|
  {
  }

  /** `c.isspace()`: Unicode whitespace as CPython defines it. */
  predicate IsSpace(c: char)
  {
    var n := c as int;
    (9 <= n <= 13) || (0x1C <= n <= 0x20) || n == 0x85 || n == 0xA0 || n == 0x1680
    || (0x2000 <= n <= 0x200A) || n == 0x2028 || n == 0x2029 || n == 0x202F
    || n == 0x205F || n == 0x3000
  }

  predicate AllSpace(s: string)
  {
    forall j :: 0 <= j < |s| ==> IsSpace(s[j])
  }

  /** The index of the first character at or after `k` that is not whitespace, or `|s|`. */
  function SkipSpace(s: string, k: nat): (a: nat)
    requires k <= |s|
    ensures k <= a <= |s|
    ensures forall j :: k <= j < a ==> IsSpace(s[j])
    ensures a < |s| ==> !IsSpace(s[a])
    decreases |s| - k
  {
    if k == |s| || !IsSpace(s[k]) then k else SkipSpace(s, k + 1)
  }

  /** The end of `s[lo..e]` once its trailing whitespace is cut off. */
  function BackSpace(s: string, lo: nat, e: nat): (b: nat)
    requires lo <= e <= |s|
    ensures lo <= b <= e
    ensures forall j :: b <= j < e ==> IsSpace(s[j])
    ensures b > lo ==> !IsSpace(s[b - 1])
    decreases e - lo
  {
    if e == lo || !IsSpace(s[e - 1]) then e else BackSpace(s, lo, e - 1)
  }

  /** `s` is `a` whitespace characters, then `r`, then whitespace only. */
  predicate Framed(s: string, r: string, a: int)
  {
    0 <= a <= |s| - |r| && s[a..a + |r|] == r && AllSpace(s[..a]) && AllSpace(s[a + |r|..])
  }

  /**
   * `s.strip()`: `s` is some whitespace, then the result, then some
   * whitespace, and the result neither starts nor ends with whitespace.
   */
  function Strip(s: string): (r: string)
    ensures |r| > 0 ==> !IsSpace(r[0]) && !IsSpace(r[|r| - 1])
    ensures exists a :: Framed(s, r, a)
  {
    var a := SkipSpace(s, 0);
    var b := BackSpace(s, a, |s|);
    assert Framed(s, s[a..b], a);
    s[a..b]
  }

  /** Stripping twice strips nothing more. */
  lemma StripIdempotent(s: string)
    ensures Strip(Strip(s)) == Strip(s)
  {
    var r := Strip(s);
    if |r| > 0 {
      assert SkipSpace(r, 0) == 0;
      assert BackSpace(r, 0, |r|) == |r|;
      assert r[0..|r|] == r;
    }
  }

  predicate StartsWith(s: string, prefix: string)
  {
    |prefix| <= |s| && s[..|prefix|] == prefix
  }

  /** `sub in s`. */
  predicate Contains(s: string, sub: string)
    decreases |s|
  {
    StartsWith(s, sub) || (|s| > 0 && Contains(s[1..], sub))
  }

  /** `sub` occurs in `s` starting at index `k`. */
  predicate OccursAt(s: string, sub: string, k: int)
  {
    0 <= k <= |s| - |sub| && s[k..k + |sub|] == sub
  }

  /** `sub in s` holds exactly when `sub` occurs at some index of `s`. */
  lemma {:induction false} ContainsAt(s: string, sub: string)
    ensures Contains(s, sub) <==> exists k :: OccursAt(s, sub, k)
    decreases |s|
  {
    if StartsWith(s, sub) {
      assert OccursAt(s, sub, 0);
    }
    if |s| > 0 {
      ContainsAt(s[1..], sub);
      if Contains(s[1..], sub) {
        var k :| OccursAt(s[1..], sub, k);
        assert OccursAt(s, sub, k + 1);
      }
      if exists k :: OccursAt(s, sub, k) {
        var k :| OccursAt(s, sub, k);
        if k > 0 {
          assert OccursAt(s[1..], sub, k - 1);
        }
      }
    } else {
      if exists k :: OccursAt(s, sub, k) {
        var k :| OccursAt(s, sub, k);
        assert StartsWith(s, sub);
      }
    }
  }

  /** `s.lower()` on ASCII text. */
  function Lower(s: string): (r: string)
    ensures |r| == |s|
    ensures forall j :: 0 <= j < |s| ==>
              r[j] == if 'A' <= s[j] <= 'Z' then (s[j] as int + 32) as char else s[j]
  {
    if |s| == 0 then ""
    else [if 'A' <= s[0] <= 'Z' then (s[0] as int + 32) as char else s[0]] + Lower(s[1..])
  }
}

=== FILE: wifi.dfy ===
/**
 * The wifi commands of the console (commands/wifi.py): `password`, `scan`,
 * `connect`, `targets` and `toggle`, over the console's shared state
 * `INTERFACES`, `TARGETS` and `PASSWORDS`.
 *
 * Every read of `console.root.interfaces` refreshes `INTERFACES` from the
 * operating system; here each refresh is given as a snapshot and replaces
 * `INTERFACES` wholesale. The shell jobs the console runs are appended to a
 * trace, and the text the tools print is an input.
 */
module Wifi {
  import opened Wrappers
  import opened Text
  import opened Airmon
  import opened Rfkill
  import opened Session
  import opened Layout

  /** What a refresh of `console.root.interfaces` reports: name to `[monitor, boundEssid]`. */
  type Snapshot = map<string, Iface>

  // ---------------------------------------------------------------- password

  /** The target dict of `essid` holds a 'password' key (whatever its value). */
  predicate HasPasswordKey(targets: map<string, Target>, essid: string)
  {
    essid in targets && "password" in targets[essid]
  }

  /** `Password.complete_keys`: the targets, in `TARGETS` order, whose dict has a 'password' key. */
  function PasswordKeys(order: seq<string>, targets: map<string, Target>): (keys: seq<string>)
    ensures forall e :: e in keys <==> e in order && HasPasswordKey(targets, e)
    ensures |keys| <= |order|
  {
    if |order| == 0 then []
    else
      var rest := PasswordKeys(order[1..], targets);
      assert forall e :: e in order <==> e == order[0] || e in order[1..];
      if HasPasswordKey(targets, order[0]) then [order[0]] + rest else rest
  }

  /**
   * The completions keep the `TARGETS` order and list each listed target
   * once: the list is built target by target.
   */
  lemma {:induction false} PasswordKeysAppend(a: seq<string>, b: seq<string>, targets: map<string, Target>)
    ensures PasswordKeys(a + b, targets) == PasswordKeys(a, targets) + PasswordKeys(b, targets)
    ensures forall e :: PasswordKeys([e], targets) == if HasPasswordKey(targets, e) then [e] else []
    decreases |a|
  {
    if |a| == 0 {
      assert a + b == b;
    } else {
      assert (a + b)[0] == a[0] && (a + b)[1..] == a[1..] + b;
      PasswordKeysAppend(a[1..], b, targets);
    }
    forall e ensures PasswordKeys([e], targets) == if HasPasswordKey(targets, e) then [e] else [] {
      assert [e][1..] == [];
    }
  }

  /** `Password.validate`: an essid outside the completions is an invalid target. */
  function PasswordValidate(order: seq<string>, targets: map<string, Target>, essid: string): Outcome
  {
    if essid !in PasswordKeys(order, targets) then Fail("invalid target") else Pass
  }

  /**
   * With `order` listing exactly the keys of `TARGETS`, validation fails
   * exactly when the essid is not a target whose dict has a 'password' key;
   * a key holding None still passes.
   */
  lemma PasswordValidateIff(order: seq<string>, targets: map<string, Target>, essid: string)
    requires forall e :: e in targets <==> e in order
    ensures PasswordValidate(order, targets, essid) == Fail("invalid target") <==> !HasPasswordKey(targets, essid)
    ensures PasswordValidate(order, targets, essid) == Pass <==> HasPasswordKey(targets, essid)
    ensures essid in targets && targets[essid] == map["password" := Null] ==> PasswordValidate(order, targets, essid) == Pass
  {
  }

  /** `TARGETS` after `TARGETS[essid]['password'] = password`. */
  function StoreTargets(targets: map<string, Target>, essid: string, password: string): (r: map<string, Target>)
    requires essid in targets
    ensures r.Keys == targets.Keys
    ensures r[essid].Keys == targets[essid].Keys + {"password"}
    ensures r[essid]["password"] == Text(password)
    ensures forall f :: f in targets[essid] && f != "password" ==> r[essid][f] == targets[essid][f]
    ensures forall e :: e in targets && e != essid ==> r[e] == targets[e]
  {
    targets[essid := targets[essid]["password" := Text(password)]]
  }

  /** Every password in `PASSWORDS` is the one its target's dict holds. */
  ghost predicate Consistent(targets: map<string, Target>, passwords: map<string, string>)
  {
    forall e :: e in passwords ==> e in targets && "password" in targets[e] && targets[e]["password"] == Text(passwords[e])
  }

  /** Setting a password keeps `TARGETS` and `PASSWORDS` in agreement. */
  lemma StoreKeepsConsistent(targets: map<string, Target>, passwords: map<string, string>, essid: string, password: string)
    requires essid in targets && Consistent(targets, passwords)
    ensures Consistent(StoreTargets(targets, essid, password), passwords[essid := password])
  {
  }

  /** A stored password makes the target a `password` completion, and a `connect` one unless it is connected. */
  lemma StoreEnablesConnect(order: seq<string>, targets: map<string, Target>, essid: string, password: string,
                            connected: set<string>)
    requires essid in targets && essid in order
    ensures essid in PasswordKeys(order, StoreTargets(targets, essid, password))
    ensures essid in ConnectCompleteValues(order, StoreTargets(targets, essid, password), connected) <==> essid !in connected
  {
  }

  // ---------------------------------------------------------------- scan

  /** `Scan.complete_keys`: the interfaces of the refreshed snapshot that are in monitor mode. */
  function ScanCompleteKeys(snapshot: Snapshot): set<string>
  {
    set i | i in snapshot && snapshot[i].monitor
  }

  /** An `INTERFACES` entry as the Python list `[monitor, boundEssid]`. */
  function EntryList(entry: Iface): (xs: seq<Value>)
    ensures |xs| == 2 && xs[0] == Flag(entry.monitor)
  {
    [Flag(entry.monitor), match entry.bound case None => Null case Some(e) => Text(e)]
  }

  /** Python truthiness of a list: it is not empty. */
  predicate Truthy(xs: seq<Value>)
  {
    |xs| > 0
  }

  /**
   * `Scan.validate` as written: the second test asks whether the whole
   * entry is truthy, not whether its monitor flag is.
   */
  function ScanValidate(snapshot: Snapshot, iface: string, timeout: int): Outcome
  {
    if iface !in snapshot then Fail("bad wireless interface")
    else if !Truthy(EntryList(snapshot[iface])) then Fail("wireless interface not in monitor mode")
    else if timeout <= 0 then Fail("must be greater than 0")
    else Pass
  }

  /** As written, the monitor-mode test never fails: only the name and the timeout are checked. */
  lemma ScanValidateIgnoresMode(snapshot: Snapshot, iface: string, timeout: int)
    ensures ScanValidate(snapshot, iface, timeout) == Pass <==> iface in snapshot && timeout > 0
    ensures ScanValidate(snapshot, iface, timeout) != Fail("wireless interface not in monitor mode")
  {
  }

  /** A managed-mode interface passes `Scan.validate` as written. */
  lemma ScanValidateAcceptsManaged()
    ensures var snapshot := map["wlan0" := Iface(false, None)];
            ScanValidate(snapshot, "wlan0", 300) == Pass
            && ScanValidateIntended(snapshot, "wlan0", 300) == Fail("wireless interface not in monitor mode")
  {
  }

  /** `Scan.validate` testing the monitor flag, `m[0]`, as `complete_keys` does. */
  function ScanValidateIntended(snapshot: Snapshot, iface: string, timeout: int): Outcome
  {
    if iface !in snapshot then Fail("bad wireless interface")
    else if !snapshot[iface].monitor then Fail("wireless interface not in monitor mode")
    else if timeout <= 0 then Fail("must be greater than 0")
    else Pass
  }

  /** The intended check accepts exactly the completions of `scan`, with a positive timeout. */
  lemma ScanValidateIntendedIff(snapshot: Snapshot, iface: string, timeout: int)
    ensures ScanValidateIntended(snapshot, iface, timeout) == Pass <==> iface in ScanCompleteKeys(snapshot) && timeout > 0
    ensures ScanValidateIntended(snapshot, iface, timeout) == Pass ==> ScanValidate(snapshot, iface, timeout) == Pass
  {
  }

  // ---------------------------------------------------------------- connect

  /** `d.get('password') is not None`. */
  predicate HasPassword(targets: map<string, Target>, essid: string)
  {
    essid in targets && "password" in targets[essid] && targets[essid]["password"] != Null
  }

  /** `Connect.complete_values`: targets with a known password that no interface is connected to. */
  function ConnectCompleteValues(order: seq<string>, targets: map<string, Target>, connected: set<string>): (r: seq<string>)
    ensures forall e :: e in r <==> e in order && HasPassword(targets, e) && e !in connected
    ensures |r| <= |order|
  {
    if |order| == 0 then []
    else
      var rest := ConnectCompleteValues(order[1..], targets, connected);
      assert forall e :: e in order <==> e == order[0] || e in order[1..];
      if HasPassword(targets, order[0]) && order[0] !in connected then [order[0]] + rest else rest
  }

  /**
   * The completions keep the `TARGETS` order and list each listed target
   * once: the list is built target by target.
   */
  lemma {:induction false} ConnectCompleteValuesAppend(a: seq<string>, b: seq<string>, targets: map<string, Target>,
                                                       connected: set<string>)
    ensures ConnectCompleteValues(a + b, targets, connected)
            == ConnectCompleteValues(a, targets, connected) + ConnectCompleteValues(b, targets, connected)
    ensures forall e :: ConnectCompleteValues([e], targets, connected)
                        == if HasPassword(targets, e) && e !in connected then [e] else []
    decreases |a|
  {
    if |a| == 0 {
      assert a + b == b;
    } else {
      assert (a + b)[0] == a[0] && (a + b)[1..] == a[1..] + b;
      ConnectCompleteValuesAppend(a[1..], b, targets, connected);
    }
    forall e ensures ConnectCompleteValues([e], targets, connected)
                     == if HasPassword(targets, e) && e !in connected then [e] else [] {
      assert [e][1..] == [];
    }
  }

  /** Every `connect` completion is also a `password` completion. */
  lemma ConnectableHasPasswordKey(order: seq<string>, targets: map<string, Target>, connected: set<string>, e: string)
    requires e in ConnectCompleteValues(order, targets, connected)
    ensures e in PasswordKeys(order, targets)
  {
  }

  /** `INTERFACES` after `INTERFACES[i][1] = essid`. */
  function Bind(interfaces: Snapshot, i: string, essid: string): (r: Snapshot)
    requires i in interfaces
    ensures r.Keys == interfaces.Keys
    ensures r[i].bound == Some(essid)
    ensures forall n :: n in interfaces ==> r[n].monitor == interfaces[n].monitor
    ensures forall n :: n in interfaces && n != i ==> r[n] == interfaces[n]
  {
    interfaces[i := Iface(interfaces[i].monitor, Some(essid))]
  }

  /** After binding, the connected essids are those of the other interfaces plus `essid`. */
  lemma BindConnects(interfaces: Snapshot, i: string, essid: string)
    requires i in interfaces
    ensures ConnectedEssids(Bind(interfaces, i, essid)) == ConnectedEssids(interfaces - {i}) + {essid}
  {
    var after := Bind(interfaces, i, essid);
    forall e
      ensures e in ConnectedEssids(after) <==> e in ConnectedEssids(interfaces - {i}) + {essid}
    {
      if e in ConnectedEssids(after) {
        var n :| n in after && after[n].bound == Some(e);
        if n != i {
          assert (interfaces - {i})[n].bound == Some(e);
        }
      }
      if e in ConnectedEssids(interfaces - {i}) {
        var n :| n in interfaces - {i} && (interfaces - {i})[n].bound == Some(e);
        assert after[n].bound == Some(e);
      }
      if e == essid {
        assert after[i].bound == Some(e);
      }
    }
  }

  /** Once bound, the essid is connected: it leaves the `connect` completions and is shown bold. */
  lemma BoundNotOffered(order: seq<string>, targets: map<string, Target>, interfaces: Snapshot, i: string, essid: string)
    requires i in interfaces
    ensures IsConnected(Bind(interfaces, i, essid), essid)
    ensures essid !in ConnectCompleteValues(order, targets, ConnectedEssids(Bind(interfaces, i, essid)))
  {
    assert Bind(interfaces, i, essid)[i].bound == Some(essid);
  }

  // ---------------------------------------------------------------- targets

  /** Every essid of `order` is a target. */
  predicate Listed(order: seq<string>, targets: map<string, Target>)
  {
    forall k :: 0 <= k < |order| ==> order[k] in targets
  }

  /** The rows one target contributes to the `targets` table. */
  function ShownRows(targets: map<string, Target>, interfaces: Snapshot, essid: string): Result<seq<Row>>
    requires essid in targets
  {
    TargetRows(targets[essid], IsConnected(interfaces, essid))
  }

  /** The rows of each target in `TARGETS` order, or the KeyError it raises. */
  function TargetBlocks(order: seq<string>, targets: map<string, Target>, interfaces: Snapshot): (blocks: seq<Result<seq<Row>>>)
    requires Listed(order, targets)
    ensures |blocks| == |order|
  {
    seq(|order|, k requires 0 <= k < |order| => ShownRows(targets, interfaces, order[k]))
  }

  /** The blocks one after the other, or the error of the first block that failed. */
  function Tabulate(blocks: seq<Result<seq<Row>>>): Result<seq<Row>>
  {
    if |blocks| == 0 then Success([])
    else
      match Tabulate(blocks[..|blocks| - 1])
      case Failure(err) => Failure(err)
      case Success(rows) =>
        match blocks[|blocks| - 1]
        case Failure(err) => Failure(err)
        case Success(more) => Success(rows + more)
  }

  /** The body of the `targets` table. */
  function TargetsTable(order: seq<string>, targets: map<string, Target>, interfaces: Snapshot): Result<seq<Row>>
    requires Listed(order, targets)
  {
    Tabulate(TargetBlocks(order, targets, interfaces))
  }

  /**
   * The table fails exactly when a block does, with the error of the first
   * failing block; it is empty, so that the warning is logged, exactly when
   * every block is.
   */
  lemma {:induction false} TabulateIff(blocks: seq<Result<seq<Row>>>)
    ensures Tabulate(blocks).Failure? <==> exists k :: 0 <= k < |blocks| && blocks[k].Failure?
    ensures Tabulate(blocks).Failure? ==>
              exists k :: 0 <= k < |blocks| && blocks[k] == Failure(Tabulate(blocks).error)
                          && forall j :: 0 <= j < k ==> blocks[j].Success?
    ensures Tabulate(blocks) == Success([]) <==> forall k :: 0 <= k < |blocks| ==> blocks[k] == Success([])
  {
    if |blocks| > 0 {
      var front := blocks[..|blocks| - 1];
      var last := |blocks| - 1;
      assert forall k :: 0 <= k < |front| ==> front[k] == blocks[k];
      TabulateIff(front);
      var r := Tabulate(blocks);
      if Tabulate(front).Failure? {
        var k :| 0 <= k < |front| && front[k] == Failure(Tabulate(front).error)
                 && forall j :: 0 <= j < k ==> front[j].Success?;
        assert blocks[k] == Failure(r.error);
      } else if r.Failure? {
        assert blocks[last] == Failure(r.error);
      } else {
        var rows := Tabulate(front).value;
        var more := blocks[last].value;
        assert r.value == rows + more;
        assert rows + more == [] <==> rows == [] && more == [];
      }
    }
  }

  /** The table grows by one block, or stops at a failing one. */
  lemma TabulateStep(blocks: seq<Result<seq<Row>>>, n: nat, data: seq<Row>)
    requires n < |blocks| && Tabulate(blocks[..n]) == Success(data)
    ensures blocks[n].Success? ==> Tabulate(blocks[..n + 1]) == Success(data + blocks[n].value)
    ensures blocks[n].Failure? ==> Tabulate(blocks) == Failure(blocks[n].error)
  {
    assert blocks[..n + 1][..n] == blocks[..n];
    if blocks[n].Failure? {
      TabulateFailureSticks(blocks, n + 1, blocks[n].error);
    }
  }

  /** The table after one more target: its rows appended, or its error. */
  lemma TargetStep(order: seq<string>, targets: map<string, Target>, interfaces: Snapshot, n: nat, data: seq<Row>)
    requires Listed(order, targets)
    requires n < |order| && Tabulate(TargetBlocks(order, targets, interfaces)[..n]) == Success(data)
    ensures var rows := ShownRows(targets, interfaces, order[n]);
            (rows.Success? ==> Tabulate(TargetBlocks(order, targets, interfaces)[..n + 1]) == Success(data + rows.value))
            && (rows.Failure? ==> TargetsTable(order, targets, interfaces) == rows)
  {
    var blocks := TargetBlocks(order, targets, interfaces);
    assert blocks[n] == ShownRows(targets, interfaces, order[n]);
    TabulateStep(blocks, n, data);
  }

  lemma TargetsDone(order: seq<string>, targets: map<string, Target>, interfaces: Snapshot)
    requires Listed(order, targets)
    ensures Tabulate(TargetBlocks(order, targets, interfaces)[..|order|]) == TargetsTable(order, targets, interfaces)
  {
    assert TargetBlocks(order, targets, interfaces)[..|order|] == TargetBlocks(order, targets, interfaces);
  }

  /** Once a block fails, the table fails with its error, whatever follows. */
  lemma {:induction false} TabulateFailureSticks(blocks: seq<Result<seq<Row>>>, n: nat, err: string)
    requires n <= |blocks| && Tabulate(blocks[..n]) == Failure(err)
    ensures Tabulate(blocks) == Failure(err)
    decreases |blocks|
  {
    if n < |blocks| {
      var front := blocks[..|blocks| - 1];
      assert front[..n] == blocks[..n];
      TabulateFailureSticks(front, n, err);
    } else {
      assert blocks[..n] == blocks;
    }
  }

  // ---------------------------------------------------------------- toggle

  /** A shell job the console runs. */
  datatype Job = AirmonStop(iface: string) | AirmonCheckKill | AirmonStart(iface: string)
               | RfkillList | RfkillUnblock(id: string)

  /** The shell line of a job. */
  function CommandLine(j: Job): (line: string)
    ensures StartsWith(line, "sudo ")
  {
    match j
    case AirmonStop(i) => "sudo airmon-ng stop " + i
    case AirmonCheckKill => "sudo airmon-ng check kill"
    case AirmonStart(i) => "sudo airmon-ng start " + i
    case RfkillList => "sudo rfkill list"
    case RfkillUnblock(id) => "sudo rfkill unblock " + id
  }

  /**
   * Distinct jobs run distinct shell lines, so the trace of jobs records the
   * commands run exactly.
   */
  lemma CommandLineInjective(j: Job, k: Job)
    requires CommandLine(j) == CommandLine(k)
    ensures j == k
  {
    var a, b := CommandLine(j), CommandLine(k);
    assert a[5] == b[5] && a[12] == b[12] && a[15] == b[15];
    if a[5] == 'a' && a[15] == 's' {
      assert a[17] == b[17];
    }
    match j
    case AirmonStop(i) =>
      assert k.AirmonStop? && a[20..] == i && b[20..] == k.iface;
    case AirmonStart(i) =>
      assert k.AirmonStart? && a[21..] == i && b[21..] == k.iface;
    case RfkillUnblock(id) =>
      assert k.RfkillUnblock? && a[20..] == id && b[20..] == k.id;
    case _ =>
  }

  /** The text fed to a job's standard input: airmon-ng start is answered "y". */
  function Stdin(j: Job): Option<string>
  {
    if j.AirmonStart? then Some("y\n") else None
  }

  /** The three jobs that switch a managed interface to monitor mode, in order. */
  function SwitchJobs(iface: string): seq<Job>
  {
    [AirmonStop(iface), AirmonCheckKill, AirmonStart(iface)]
  }

  /** `rfkill unblock <id>` for each id, in order. */
  function Unblocks(ids: seq<string>): (js: seq<Job>)
    ensures |js| == |ids|
  {
    if |ids| == 0 then [] else Unblocks(ids[..|ids| - 1]) + [RfkillUnblock(ids[|ids| - 1])]
  }

  lemma {:induction false} UnblocksAt(ids: seq<string>, k: nat)
    requires k < |ids|
    ensures Unblocks(ids)[k] == RfkillUnblock(ids[k])
  {
    if k < |ids| - 1 {
      UnblocksAt(ids[..|ids| - 1], k);
    }
  }

  /** One more unblock issued after `done`. */
  lemma UnblocksSnoc(done: seq<Job>, ids: seq<string>, id: string)
    ensures done + Unblocks(ids) + [RfkillUnblock(id)] == done + Unblocks(ids + [id])
  {
    assert (ids + [id])[..|ids|] == ids;
  }

  /**
   * What the system reports while a toggle runs: the interfaces at the
   * refresh before the switch, the output of `airmon-ng start`, the
   * interfaces at the refresh after it, the output of `rfkill list`, and the
   * interfaces at the final refresh.
   */
  datatype ToggleEnv = ToggleEnv(before: Snapshot, startOutput: string, after: Snapshot,
                                 rfkillOutput: string, final: Snapshot)

  /** How a toggle ended. */
  datatype Stage =
    | UnknownInterface   // KeyError: the interface has no INTERFACES entry
    | BackToManaged      // monitor mode was stopped
    | NotAnnounced       // no usable "monitor mode" line; returns before the final refresh
    | NoNewInterface     // IndexError: no name appeared between the two refreshes
    | RfkillUnreadable   // IndexError: an rfkill line without ":"
    | MonitorOn          // switched, unblocked, refreshed

  /** The jobs a toggle runs, how it ends, and what `INTERFACES` holds afterwards. */
  datatype Plan = Plan(jobs: seq<Job>, stage: Stage, interfaces: Snapshot)

  /** `Toggle.run` for `iface`, with `INTERFACES` as last refreshed. */
  function TogglePlan(iface: string, interfaces: Snapshot, env: ToggleEnv): Plan
  {
    if iface !in interfaces then Plan([], UnknownInterface, interfaces)
    else if interfaces[iface].monitor then Plan([AirmonStop(iface)], BackToManaged, env.final)
    else
      match ParseAnnouncement(env.startOutput)
      case None => Plan(SwitchJobs(iface), NotAnnounced, env.before)
      case Some(tag) =>
        if env.after.Keys - env.before.Keys == {} then Plan(SwitchJobs(iface), NoNewInterface, env.after)
        else UnblockPlan(SwitchJobs(iface), tag.device, env)
  }

  /**
   * The end of a toggle past the rename, after the jobs `switch`: list the
   * rfkill entries, unblock those of `device`, and refresh unless a line
   * could not be read.
   */
  function UnblockPlan(switch: seq<Job>, device: string, env: ToggleEnv): Plan
  {
    var scan := UnblockScan(SplitLines(env.rfkillOutput), device);
    var jobs := switch + [RfkillList] + Unblocks(scan.ids);
    if scan.complete then Plan(jobs, MonitorOn, env.final) else Plan(jobs, RfkillUnreadable, env.after)
  }

  /** The unblocks of a scan that has read one more line. */
  lemma ScanOneMore(listing: seq<string>, device: string, j: nat)
    requires j < |listing| && UnblockScan(listing[..j], device).complete
    ensures var now := UnblockScan(listing[..j], device);
            var next := UnblockScan(listing[..j + 1], device);
            WellFormed(listing[j]) ==>
              next.complete
              && (Names(listing[j], device) ==> next.ids == now.ids + [Id(listing[j])])
              && (!Names(listing[j], device) ==> next.ids == now.ids)
  {
    var now := UnblockScan(listing[..j], device);
    assert listing[..j + 1] == listing[..j] + [listing[j]];
    ScanExtend(listing[..j], device, listing[j]);
    assert UnblockScan(listing[..j + 1], device) == Step(now, listing[j], device);
  }

  /** A line without ":" ends the scan with the unblocks of the lines before it. */
  lemma UnreadableStops(listing: seq<string>, device: string, j: nat)
    requires j < |listing| && UnblockScan(listing[..j], device).complete && !WellFormed(listing[j])
    ensures UnblockScan(listing, device) == Scan(UnblockScan(listing[..j], device).ids, false)
  {
    ScanCompleteIff(listing[..j], device);
    assert forall i :: 0 <= i < j ==> listing[..j][i] == listing[i];
    StopsAtUnreadable(listing, device, j);
  }

  /** The toggle gets past the rename: a managed interface, an announcement, and a new name. */
  predicate Renamed(iface: string, interfaces: Snapshot, env: ToggleEnv)
  {
    iface in interfaces && !interfaces[iface].monitor
    && ParseAnnouncement(env.startOutput).Some? && env.after.Keys - env.before.Keys != {}
  }

  /** Past the rename, what is left is the rfkill part, for the announced device. */
  lemma PastRename(iface: string, interfaces: Snapshot, env: ToggleEnv)
    requires Renamed(iface, interfaces, env)
    ensures TogglePlan(iface, interfaces, env)
            == UnblockPlan(SwitchJobs(iface), ParseAnnouncement(env.startOutput).value.device, env)
  {
  }

  /** Short of the rename, the toggle runs at most the switch jobs and ends in an error or at stage `BackToManaged`. */
  lemma ShortOfRename(iface: string, interfaces: Snapshot, env: ToggleEnv)
    requires !Renamed(iface, interfaces, env)
    ensures var p := TogglePlan(iface, interfaces, env);
            p.jobs == [] || p.jobs == [AirmonStop(iface)] || p.jobs == SwitchJobs(iface)
    ensures iface in interfaces && !interfaces[iface].monitor ==> TogglePlan(iface, interfaces, env).jobs == SwitchJobs(iface)
    ensures forall j :: j in TogglePlan(iface, interfaces, env).jobs ==> !j.RfkillUnblock? && !j.RfkillList?
    ensures TogglePlan(iface, interfaces, env).stage !in {MonitorOn, RfkillUnreadable}
  {
  }

  /** The jobs of the rfkill part: the switch, the listing, then one unblock per scanned id. */
  lemma UnblockPlanJobs(switch: seq<Job>, device: string, env: ToggleEnv, k: int)
    requires 0 <= k < |UnblockPlan(switch, device, env).jobs|
    ensures var p := UnblockPlan(switch, device, env);
            var ids := UnblockScan(SplitLines(env.rfkillOutput), device).ids;
            |p.jobs| == |switch| + 1 + |ids|
            && (k < |switch| ==> p.jobs[k] == switch[k])
            && (k == |switch| ==> p.jobs[k] == RfkillList)
            && (k > |switch| ==> p.jobs[k] == RfkillUnblock(ids[k - |switch| - 1]))
  {
    var ids := UnblockScan(SplitLines(env.rfkillOutput), device).ids;
    if k > |switch| {
      UnblocksAt(ids, k - |switch| - 1);
    }
  }

  /** An interface whose entry is flagged monitor is only stopped, never started, and then refreshed. */
  lemma MonitorOnlyStops(iface: string, interfaces: Snapshot, env: ToggleEnv)
    requires iface in interfaces && interfaces[iface].monitor
    ensures TogglePlan(iface, interfaces, env) == Plan([AirmonStop(iface)], BackToManaged, env.final)
  {
  }

  /**
   * A managed interface is stopped, then its users are killed, then it is
   * started with "y" on standard input; no other job starts anything.
   */
  lemma ManagedSwitchOrder(iface: string, interfaces: Snapshot, env: ToggleEnv)
    requires iface in interfaces && !interfaces[iface].monitor
    ensures var p := TogglePlan(iface, interfaces, env);
            |p.jobs| >= 3 && p.jobs[..3] == [AirmonStop(iface), AirmonCheckKill, AirmonStart(iface)]
            && Stdin(p.jobs[2]) == Some("y\n")
            && forall k :: 0 <= k < |p.jobs| && k != 2 ==> !p.jobs[k].AirmonStart?
  {
    if Renamed(iface, interfaces, env) {
      PastRename(iface, interfaces, env);
      UnblockPlanStartsOnce(iface, ParseAnnouncement(env.startOutput).value.device, env);
    } else {
      ShortOfRename(iface, interfaces, env);
    }
  }

  /** The rfkill part after the switch jobs starts nothing more. */
  lemma UnblockPlanStartsOnce(iface: string, device: string, env: ToggleEnv)
    ensures var p := UnblockPlan(SwitchJobs(iface), device, env);
            |p.jobs| >= 3 && p.jobs[..3] == SwitchJobs(iface)
            && forall k :: 0 <= k < |p.jobs| && k != 2 ==> !p.jobs[k].AirmonStart?
  {
    var p := UnblockPlan(SwitchJobs(iface), device, env);
    forall k | 0 <= k < |p.jobs|
      ensures k < 3 ==> p.jobs[k] == SwitchJobs(iface)[k]
      ensures k != 2 ==> !p.jobs[k].AirmonStart?
    {
      UnblockPlanJobs(SwitchJobs(iface), device, env, k);
    }
    UnblockPlanJobs(SwitchJobs(iface), device, env, 0);
  }

  /** `airmon-ng start` is only ever run on the toggled interface, and only when it was managed. */
  lemma StartOnlyFromManaged(iface: string, interfaces: Snapshot, env: ToggleEnv, j: Job)
    requires j in TogglePlan(iface, interfaces, env).jobs && j.AirmonStart?
    ensures j == AirmonStart(iface) && iface in interfaces && !interfaces[iface].monitor
  {
    var p := TogglePlan(iface, interfaces, env);
    if iface in interfaces && !interfaces[iface].monitor {
      ManagedSwitchOrder(iface, interfaces, env);
      var k :| 0 <= k < |p.jobs| && p.jobs[k] == j;
      assert p.jobs[2] == p.jobs[..3][2];
    } else {
      ShortOfRename(iface, interfaces, env);
    }
  }

  /** Without an announcement the toggle stops after the switch, with no rfkill job and no final refresh. */
  lemma NotAnnouncedSkipsRefresh(iface: string, interfaces: Snapshot, env: ToggleEnv)
    requires iface in interfaces && !interfaces[iface].monitor
    requires ParseAnnouncement(env.startOutput).None?
    ensures TogglePlan(iface, interfaces, env) == Plan(SwitchJobs(iface), NotAnnounced, env.before)
  {
  }

  /** When no new name appears between the refreshes, the toggle raises before rfkill is run. */
  lemma EmptyDiffRaises(iface: string, interfaces: Snapshot, env: ToggleEnv)
    requires iface in interfaces && !interfaces[iface].monitor
    requires ParseAnnouncement(env.startOutput).Some?
    requires env.after.Keys - env.before.Keys == {}
    ensures TogglePlan(iface, interfaces, env) == Plan(SwitchJobs(iface), NoNewInterface, env.after)
  {
  }

  /**
   * Past the rename, the toggle ends at stage `MonitorOn` with the final refresh exactly when
   * every line of the rfkill listing holds a ":", and otherwise raises with
   * `INTERFACES` as of the refresh after the switch.
   */
  lemma MonitorOnIff(iface: string, interfaces: Snapshot, env: ToggleEnv)
    requires Renamed(iface, interfaces, env)
    ensures var lines := SplitLines(env.rfkillOutput);
            TogglePlan(iface, interfaces, env).stage == MonitorOn <==> AllColons(lines)
    ensures TogglePlan(iface, interfaces, env).stage == MonitorOn ==> TogglePlan(iface, interfaces, env).interfaces == env.final
    ensures TogglePlan(iface, interfaces, env).stage != MonitorOn ==>
              TogglePlan(iface, interfaces, env).stage == RfkillUnreadable && TogglePlan(iface, interfaces, env).interfaces == env.after
  {
    PastRename(iface, interfaces, env);
    UnblockPlanStage(SwitchJobs(iface), ParseAnnouncement(env.startOutput).value.device, env);
  }

  lemma UnblockPlanStage(switch: seq<Job>, device: string, env: ToggleEnv)
    ensures var lines := SplitLines(env.rfkillOutput);
            var p := UnblockPlan(switch, device, env);
            (p.stage == MonitorOn <==> AllColons(lines))
            && (p.stage == MonitorOn ==> p.interfaces == env.final)
            && (p.stage != MonitorOn ==> p.stage == RfkillUnreadable && p.interfaces == env.after)
  {
    ScanCompleteIffColon(SplitLines(env.rfkillOutput), device);
  }

  /** On success every rfkill entry of the announced device is unblocked, not only the first. */
  lemma EveryEntryUnblocked(iface: string, interfaces: Snapshot, env: ToggleEnv, tag: Tag, k: nat)
    requires TogglePlan(iface, interfaces, env).stage == MonitorOn
    requires ParseAnnouncement(env.startOutput) == Some(tag)
    requires k < |SplitLines(env.rfkillOutput)| && Names(SplitLines(env.rfkillOutput)[k], tag.device)
    ensures RfkillUnblock(Id(SplitLines(env.rfkillOutput)[k])) in TogglePlan(iface, interfaces, env).jobs
  {
    if !Renamed(iface, interfaces, env) {
      ShortOfRename(iface, interfaces, env);
      assert false;
    }
    PastRename(iface, interfaces, env);
    UnblockPlanEveryEntry(SwitchJobs(iface), tag.device, env, k);
  }

  lemma UnblockPlanEveryEntry(switch: seq<Job>, device: string, env: ToggleEnv, k: nat)
    requires UnblockPlan(switch, device, env).stage == MonitorOn
    requires k < |SplitLines(env.rfkillOutput)| && Names(SplitLines(env.rfkillOutput)[k], device)
    ensures RfkillUnblock(Id(SplitLines(env.rfkillOutput)[k])) in UnblockPlan(switch, device, env).jobs
  {
    var lines := SplitLines(env.rfkillOutput);
    var ids := UnblockScan(lines, device).ids;
    ScanCompleteIff(lines, device);
    EveryMatchUnblocked(lines, device, k);
    var i :| 0 <= i < |ids| && ids[i] == Id(lines[k]);
    UnblockPlanJobs(switch, device, env, |switch| + 1 + i);
  }

  /**
   * Whatever the outcome, an unblocked id is the first field of an rfkill
   * line naming the announced device, reached before any unreadable line.
   */
  lemma OnlyDeviceEntriesUnblocked(iface: string, interfaces: Snapshot, env: ToggleEnv, id: string)
    requires RfkillUnblock(id) in TogglePlan(iface, interfaces, env).jobs
    ensures ParseAnnouncement(env.startOutput).Some?
    ensures exists k :: ReachedEntry(SplitLines(env.rfkillOutput), ParseAnnouncement(env.startOutput).value.device, k, id)
  {
    if !Renamed(iface, interfaces, env) {
      ShortOfRename(iface, interfaces, env);
      assert false;
    }
    PastRename(iface, interfaces, env);
    UnblockPlanOnlyDevice(SwitchJobs(iface), ParseAnnouncement(env.startOutput).value.device, env, id);
  }

  lemma UnblockPlanOnlyDevice(switch: seq<Job>, device: string, env: ToggleEnv, id: string)
    requires RfkillUnblock(id) in UnblockPlan(switch, device, env).jobs
    requires RfkillUnblock(id) !in switch
    ensures exists k :: ReachedEntry(SplitLines(env.rfkillOutput), device, k, id)
  {
    var p := UnblockPlan(switch, device, env);
    var lines := SplitLines(env.rfkillOutput);
    var ids := UnblockScan(lines, device).ids;
    var k :| 0 <= k < |p.jobs| && p.jobs[k] == RfkillUnblock(id);
    UnblockPlanJobs(switch, device, env, k);
    assert ids[k - |switch| - 1] == id;
    OnlyMatchesUnblocked(lines, device, id);
  }

  /**
   * Only the device id of the announcement matters: the word after the
   * brackets, which names the interface being replaced, is never used.
   */
  lemma OnlyDeviceDecides(iface: string, interfaces: Snapshot, env: ToggleEnv, out: string)
    requires ParseAnnouncement(env.startOutput).Some? && ParseAnnouncement(out).Some?
    requires ParseAnnouncement(out).value.device == ParseAnnouncement(env.startOutput).value.device
    ensures TogglePlan(iface, interfaces, env.(startOutput := out)) == TogglePlan(iface, interfaces, env)
  {
  }

  /** `Toggle.validate`: the interface must be known to the refreshed list. */
  function ToggleValidate(snapshot: Snapshot, iface: string): Outcome
  {
    if iface !in snapshot then Fail("bad wireless interface") else Pass
  }

  /** A validated toggle always finds its interface's entry. */
  lemma ValidatedToggleKnown(snapshot: Snapshot, iface: string, env: ToggleEnv)
    requires ToggleValidate(snapshot, iface) == Pass
    ensures TogglePlan(iface, snapshot, env).stage != UnknownInterface
    ensures TogglePlan(iface, snapshot, env).jobs != []
  {
  }

  /**
   * The announcement loop of `Toggle.run`: the first line of the output
   * that mentions "monitor mode" is searched, and the loop stops there
   * whether the pattern matches or not.
   */
  method FindAnnouncement(out: string) returns (tag: Option<Tag>)
    ensures tag == ParseAnnouncement(out)
  {
    var lines := Split(out, '\n', -1);
    tag := None;
    var k := 0;
    while k < |lines|
      invariant 0 <= k <= |lines| && tag.None?
      invariant forall j :: 0 <= j < k ==> !Contains(lines[j], Marker)
    {
      if Contains(lines[k], Marker) {
        tag := Search(lines[k]);
        break;
      }
      k := k + 1;
    }
    MarkerLineIs(lines, k);
  }

  /**
   * Proof step for `Console.Toggle`: the regrouping of the job trace, as a
   * separate fact. Stated inline in the method, the same equation costs the
   * solver far more.
   */
  lemma Regroup(a: seq<Job>, b: seq<Job>, c: seq<Job>, d: seq<Job>)
    ensures a + b + c + d == a + (b + c + d)
  {
  }

  // ---------------------------------------------------------------- console

  /** The console's shared state and the trace of the shell jobs it has run. */
  class Console {
    var interfaces: Snapshot
    var targets: map<string, Target>
    /** The keys of `TARGETS` in insertion order. */
    var order: seq<string>
    var passwords: map<string, string>
    var jobs: seq<Job>

    ghost predicate Valid()
      reads this
    {
      (forall i, j :: 0 <= i < j < |order| ==> order[i] != order[j])
      && (forall e :: e in targets <==> e in order)
    }

    constructor (interfaces: Snapshot, targets: map<string, Target>, order: seq<string>, passwords: map<string, string>)
      requires forall i, j :: 0 <= i < j < |order| ==> order[i] != order[j]
      requires forall e :: e in targets <==> e in order
      ensures Valid()
      ensures this.interfaces == interfaces && this.targets == targets && this.order == order
      ensures this.passwords == passwords && jobs == []
    {
      this.interfaces := interfaces;
      this.targets := targets;
      this.order := order;
      this.passwords := passwords;
      jobs := [];
    }

    /** `Password.run`: a missing target raises KeyError and changes nothing. */
    method SetPassword(essid: string, password: string) returns (o: Outcome)
      modifies this
      ensures essid in old(targets) ==> o == Pass && targets == StoreTargets(old(targets), essid, password)
                                        && passwords == old(passwords)[essid := password]
      ensures essid !in old(targets) ==> o == Fail(KeyError(essid)) && targets == old(targets) && passwords == old(passwords)
      ensures interfaces == old(interfaces) && order == old(order) && jobs == old(jobs)
      ensures old(Valid()) ==> Valid()
    {
      if essid !in targets {
        return Fail(KeyError(essid));
      }
      targets := targets[essid := targets[essid]["password" := Text(password)]];
      passwords := passwords[essid := password];
      o := Pass;
    }

    /** The `password` command: validate, then run; a rejected essid changes nothing. */
    method PasswordCommand(essid: string, password: string) returns (o: Outcome)
      requires Valid()
      modifies this
      ensures o == Pass <==> HasPasswordKey(old(targets), essid)
      ensures o.Fail? ==> o == Fail("invalid target") && targets == old(targets) && passwords == old(passwords)
      ensures o.Pass? ==> (targets == StoreTargets(old(targets), essid, password)
                           && passwords == old(passwords)[essid := password])
      ensures o.Pass? ==> targets[essid]["password"] == Text(passwords[essid]) && passwords[essid] == password
      ensures interfaces == old(interfaces) && order == old(order) && jobs == old(jobs)
      ensures Valid()
    {
      PasswordValidateIff(order, targets, essid);
      o := PasswordValidate(order, targets, essid);
      if o.Pass? {
        o := SetPassword(essid, password);
      }
    }

    /**
     * `Connect.run` once the connection oracle has answered: `joined` is the
     * interface it reports, or None when the connection failed.
     */
    method Connect(essid: string, joined: Option<string>) returns (o: Outcome)
      modifies this
      ensures joined.None? ==> o == Fail("connection failed") && interfaces == old(interfaces)
      ensures joined.Some? && joined.value !in old(interfaces) ==> o == Fail(KeyError(joined.value)) && interfaces == old(interfaces)
      ensures joined.Some? && joined.value in old(interfaces) ==>
                o == Pass && interfaces == Bind(old(interfaces), joined.value, essid) && IsConnected(interfaces, essid)
      ensures targets == old(targets) && order == old(order) && passwords == old(passwords) && jobs == old(jobs)
    {
      if joined.None? {
        return Fail("connection failed");
      }
      var i := joined.value;
      if i !in interfaces {
        return Fail(KeyError(i));
      }
      interfaces := interfaces[i := Iface(interfaces[i].monitor, Some(essid))];
      assert interfaces[i].bound == Some(essid);
      o := Pass;
    }

    /**
     * `Targets.run`: the rows of the table below its header, and whether the
     * "no target" warning is logged instead of the table.
     */
    method Targets() returns (r: Result<seq<Row>>, warn: bool)
      requires Listed(order, targets)
      ensures r == TargetsTable(order, targets, interfaces)
      ensures warn <==> r == Success([])
    {
      var data: seq<Row> := [];
      for n := 0 to |order|
        invariant Tabulate(TargetBlocks(order, targets, interfaces)[..n]) == Success(data)
      {
        var rows := ShowTarget(order[n]);
        TargetStep(order, targets, interfaces, n, data);
        if rows.Failure? {
          return rows, false;
        }
        data := data + rows.value;
      }
      TargetsDone(order, targets, interfaces);
      r := Success(data);
      warn := |data| == 0;
    }

    /** The rows of one target, bold when some interface is bound to it. */
    method ShowTarget(essid: string) returns (rows: Result<seq<Row>>)
      requires essid in targets
      ensures rows == ShownRows(targets, interfaces, essid)
    {
      var connected := IsConnected(interfaces, essid);
      rows := LayoutTarget(targets[essid], connected);
    }

    /**
     * The rfkill loop of `Toggle.run`: one unblock job per line naming
     * `device`, until a line without ":" raises IndexError (`complete` is
     * false then).
     */
    method RunUnblocks(listing: seq<string>, device: string) returns (complete: bool)
      modifies this
      ensures jobs == old(jobs) + Unblocks(UnblockScan(listing, device).ids)
      ensures complete == UnblockScan(listing, device).complete
      ensures interfaces == old(interfaces) && targets == old(targets) && order == old(order)
      ensures passwords == old(passwords)
    {
      ghost var ids: seq<string> := [];
      for j := 0 to |listing|
        invariant UnblockScan(listing[..j], device) == Scan(ids, true)
        invariant jobs == old(jobs) + Unblocks(ids)
        invariant interfaces == old(interfaces) && targets == old(targets) && order == old(order)
        invariant passwords == old(passwords)
      {
        var parts := Fields(listing[j]);
        if |parts| < 2 {
          UnreadableStops(listing, device, j);
          return false;
        }
        if Strip(parts[1]) == device {
          ScanOneMore(listing, device, j);
          UnblocksSnoc(old(jobs), ids, parts[0]);
          jobs := jobs + [RfkillUnblock(parts[0])];
          ids := ids + [parts[0]];
        } else {
          ScanOneMore(listing, device, j);
        }
      }
      assert listing[..|listing|] == listing;
      complete := true;
    }

    /**
     * `Toggle.run` on the interface `iface`. Returns how it ended and, past
     * the rename, the name picked from the interfaces that appeared.
     */
    method Toggle(iface: string, env: ToggleEnv) returns (stage: Stage, newName: Option<string>)
      modifies this
      ensures var p := TogglePlan(iface, old(interfaces), env);
              jobs == old(jobs) + p.jobs && interfaces == p.interfaces && stage == p.stage
      ensures newName.Some? <==> stage == MonitorOn || stage == RfkillUnreadable
      ensures newName.Some? ==> newName.value in env.after && newName.value !in env.before
      ensures targets == old(targets) && order == old(order) && passwords == old(passwords)
    {
      if iface !in interfaces {
        return UnknownInterface, None;
      }
      if interfaces[iface].monitor {
        MonitorOnlyStops(iface, interfaces, env);
        jobs := jobs + [AirmonStop(iface)];
        interfaces := env.final;
        return BackToManaged, None;
      }
      ghost var start := interfaces;
      interfaces := env.before;
      var before := env.before.Keys;
      jobs := jobs + [AirmonStop(iface)];
      jobs := jobs + [AirmonCheckKill];
      jobs := jobs + [AirmonStart(iface)];
      assert jobs == old(jobs) + SwitchJobs(iface);
      var tag := FindAnnouncement(env.startOutput);
      if tag.None? {
        NotAnnouncedSkipsRefresh(iface, start, env);
        return NotAnnounced, None;
      }
      interfaces := env.after;
      var appeared := env.after.Keys - before;
      if appeared == {} {
        EmptyDiffRaises(iface, start, env);
        return NoNewInterface, None;
      }
      var n :| n in appeared;
      newName := Some(n);
      assert Renamed(iface, start, env);
      PastRename(iface, start, env);
      jobs := jobs + [RfkillList];
      var complete := RunUnblocks(SplitLines(env.rfkillOutput), tag.value.device);
      ghost var ids := UnblockScan(SplitLines(env.rfkillOutput), tag.value.device).ids;
      Regroup(old(jobs), SwitchJobs(iface), [RfkillList], Unblocks(ids));
      if !complete {
        return RfkillUnreadable, newName;
      }
      interfaces := env.final;
      stage := MonitorOn;
    }

    /** The `toggle` command: validation refreshes `INTERFACES`, then the toggle runs if it passed. */
    method ToggleCommand(iface: string, snapshot: Snapshot, env: ToggleEnv) returns (o: Outcome, stage: Option<Stage>)
      modifies this
      ensures o == ToggleValidate(snapshot, iface)
      ensures o.Fail? ==> stage.None? && jobs == old(jobs) && interfaces == snapshot
      ensures o.Pass? ==> var p := TogglePlan(iface, snapshot, env);
                          stage == Some(p.stage) && p.stage != UnknownInterface
                          && jobs == old(jobs) + p.jobs && interfaces == p.interfaces
      ensures targets == old(targets) && order == old(order) && passwords == old(passwords)
    {
      interfaces := snapshot;
      o := ToggleValidate(snapshot, iface);
      if o.Fail? {
        return o, None;
      }
      ValidatedToggleKnown(snapshot, iface, env);
      var s, _ := Toggle(iface, env);
      stage := Some(s);
    }
  }
}

=== FILE: wrappers.dfy ===
/** Optional values and the outcome of a command that can raise. */
module Wrappers {

  datatype Option<+T> = None | Some(value: T)

  /** A computed value, or the error a Python command would raise instead. */
  datatype Result<+T> = Success(value: T) | Failure(error: string)

  /** A check that passes, or the message of the error it raises. */
  datatype Outcome = Pass | Fail(message: string)

  /** The error text of the KeyError a dict lookup of a missing `key` raises. */
  function KeyError(key: string): string
  {
    "KeyError: " + key
  }
}
